=== FILE: README.md ===
# Drone flight planner core in Dafny

This project models the computational core of a small drone mission planner.
The planner lets a user draw an area of interest on a map and pick a DJI drone model.
It validates the requested altitude and speed against the drone's limits, then generates
a photogrammetry flight path and estimates its distance, duration and battery count.
dji_export.py also holds a DJI mission validator and a CSV row builder that no page
calls. The modelled parts are:

- the flight calculator:
  - parameter validation against the drone's altitude and speed limits;
  - the serpentine (lawn-mower) grid path;
  - the oblique multi-ring orbit path;
  - the distance, flight time and battery estimate;
- the DJI export:
  - the waypoint action code;
  - the per-waypoint CSV row;
  - the mission validator (waypoint count and spacing);
- the map helper that derives bounds, centre and size from a drawn polygon or circle;
- the four metric/imperial unit conversions;
- the drone specification table.

Modules:

- `Options`: `Option` with `GetOr`, the model of Python's `dict.get(key, default)`.
- `Numeric`: Python's `int()` on a float (truncation toward zero) as `Trunc`, `math.ceil` as `Ceil`, `max`, and small arithmetic lemmas.
- `Sequences`: concatenation of equally sized blocks (`Blocks`), the shape of a row-by-row path, and `Reverse`.
- `Geo`: the flat-earth projection the planner uses, 111000 metres per degree with longitude scaled by the cosine of the centre latitude. It maps metre offsets to (lon, lat) waypoints.
- `DroneSpecs`: the table of six DJI models.
- `FlightCalculator`: validation, grid path, oblique path and flight metrics.
- `DjiExport`: action codes, CSV rows and the DJI mission validator.
- `MapUtils`: area bounds of a drawn geometry.
- `Units`: feet/metres and mph/m/s.

Real numbers are exact `real`s. Trigonometry and the haversine formula are not computed; each enters as a parameter:

- `cosLat` is the cosine of the centre latitude.
- `cosDeg`/`sinDeg` are the cosine and sine of an angle in degrees. The ring lemma assumes they satisfy cos² + sin² = 1.
- `leg` and `haversine` are the great-circle distance between two points.

The trigonometric values are opaque; the proofs show everything else.

Behaviour of the code that the model keeps:

- The projection uses 111000 metres per degree.
- The grid column and row counts truncate toward zero and are then clamped to at least 1.
- The camera field of view is used directly as a footprint length in metres. It is not derived from the altitude.
- The grid path ignores `direction` and `rotation_deg`, and nothing is rotated.
- The parameter validator makes only two checks: altitude and speed.
- Oblique layer radii shrink linearly by 10% of the base radius per layer (100, 90, 80 m for a 100 m base).
- The fallback radius of 100 m applies only when half the larger side is below 5 m.
- A non-positive layer count gives an empty oblique path.

## Model

| member | source | states |
|---|---|---|
| Options.Option.GetOr | flight_calculator.py:5 | a lookup yields the stored value when the key is present and the default otherwise |
| Numeric.Trunc | flight_calculator.py:15-16 | Python `int()` on a float: for x ≥ 0 the result n has 0 ≤ n ≤ x < n+1; for x < 0 it has n ≤ 0 and n−1 < x ≤ n (rounds toward zero) |
| Numeric.Ceil | flight_calculator.py:66 | `math.ceil`: the result n is the least integer with x ≤ n, i.e. n−1 < x ≤ n |
| Numeric.MaxInt | flight_calculator.py:15-16 | `max` of two ints is at least both and equal to one of them |
| Numeric.MaxReal | flight_calculator.py:37 | `max` of two reals is at least both and equal to one of them |
| Numeric.TruncMonotone | flight_calculator.py:15-16 | truncation toward zero is monotone |
| Sequences.Reverse | flight_calculator.py:29-30 | `list.reverse` puts element i at position \|s\|−1−i and keeps the length |
| Sequences.BlocksLength | flight_calculator.py:21-31 | extending a path by n blocks of equal width w gives n·w points |
| Sequences.BlocksIndex | flight_calculator.py:21-31 | point j of block b sits at index b·w + j of the extended path |
| Sequences.BlocksElement | flight_calculator.py:21-31 | every index i of the extended path holds point i mod w of block i div w |
| Geo.Project | flight_calculator.py:26-27 | lat = centre + dy/111000 and lon = centre + dx/(111000·cos lat); undoing it recovers the metre offset |
| Geo.ProjectUnproject | flight_calculator.py:26-27 | projecting a waypoint's offset gives back the waypoint |
| Geo.ProjectInjective | flight_calculator.py:26-27 | distinct metre offsets give distinct waypoints |
| Geo.ProjectLatitudeMonotone | flight_calculator.py:26 | a strictly larger northward offset gives a strictly larger latitude |
| Geo.ProjectLongitudeOfColumn | flight_calculator.py:27 | offsets with the same east component get the same longitude |
| Geo.ProjectSymmetricLongitude | flight_calculator.py:27 | opposite east offsets land symmetrically about the centre longitude |
| Geo.ProjectSymmetricLatitude | flight_calculator.py:26 | opposite north offsets land symmetrically about the centre latitude |
| Geo.ProjectAll | flight_calculator.py:26-28 | projecting a list of offsets keeps its length and projects each element in place |
| DroneSpecs.Table | drone_specs.py:5-48 | the six models with their max speed, 2–120 m altitude range, 82° camera and 0.5 s interval |
| DroneSpecs.TableHasSixModels | drone_specs.py:5-48 | the table has exactly the six named models, all distinct |
| DroneSpecs.AltitudeRangeOfEveryModel | drone_specs.py:5-48 | every model allows altitudes from 2 m to 120 m, a non-empty range |
| DroneSpecs.MaxSpeedOfEveryModel | drone_specs.py:5-48 | each model's max speed is 21, 19 or 16 m/s as listed |
| DroneSpecs.NoModelDefinesBattery | drone_specs.py:5-48 | no entry defines a battery time, so the estimator always falls back to its default |
| FlightCalculator.MaxAltitudeOf | flight_calculator.py:5 | the altitude limit is the drone's value, or 120 when absent |
| FlightCalculator.MaxSpeedOf | flight_calculator.py:7 | the speed limit is the drone's value, or 15 when absent |
| FlightCalculator.ValidateParameters | flight_calculator.py:3-9 | the error list is empty iff altitude and speed are both within limits; each error is present iff its check fails; the altitude error comes first |
| FlightCalculator.Message | flight_calculator.py:5-8 | the two messages the validator appends, in the source's wording |
| FlightCalculator.ValidationMessages | flight_calculator.py:3-9 | one message per violation, in order, with the source's wording |
| FlightCalculator.ValidationReadsOnlyAltitudeAndSpeed | flight_calculator.py:3-9 | two requests with the same altitude and speed, checked against envelopes with the same two limits, get the same verdict: interval, overlaps, fov and the other keys play no part |
| FlightCalculator.ValidationAgainstTable | flight_calculator.py:3-9 | for a tabled model the speed limit is its listed max speed, and the parameters pass iff altitude ≤ 120 m and speed ≤ that max speed |
| FlightCalculator.SpacingNonZero | flight_calculator.py:13-14 | the line spacing is non-zero whenever the fov is non-zero and the lap is not 100% |
| FlightCalculator.GridCount | flight_calculator.py:15-16 | the column/row count is ⌊extent/spacing⌋ when that ratio is ≥ 1, and 1 otherwise |
| FlightCalculator.GridCountAntitone | flight_calculator.py:15-16 | a wider spacing never yields more lines |
| FlightCalculator.Layout | flight_calculator.py:13-16 | the grid always has at least one row and one column |
| FlightCalculator.OrderedRow | flight_calculator.py:21-31 | a row has cols points; even rows run west-to-east and odd rows east-to-west |
| FlightCalculator.GridPath | flight_calculator.py:21-33 | a grid of rows × cols cells yields rows·cols waypoints |
| FlightCalculator.GenerateGridPath | flight_calculator.py:11-33 | the path has rows·cols ≥ 1 waypoints |
| FlightCalculator.GridPathOrder | flight_calculator.py:21-31 | waypoint r·cols + k is cell (r, k) on even rows and (r, cols−1−k) on odd rows |
| FlightCalculator.GridOrder | flight_calculator.py:21-31 | the same serpentine order for the path generated from the request |
| FlightCalculator.GridPathCovers | flight_calculator.py:21-31 | every waypoint is a grid cell: index i holds the cell of row i div cols visited at step i mod cols |
| FlightCalculator.GridCovers | flight_calculator.py:21-31 | every waypoint of the generated path is a cell of the requested grid, at the same position |
| FlightCalculator.ColumnAtInvolution | flight_calculator.py:29-30 | reversing a row twice returns every column to itself, and a column stays in range |
| FlightCalculator.GridPathVisitsEveryCell | flight_calculator.py:21-31 | cell (r, c) of the grid is the waypoint at index r·cols + ColumnAt(r, c) |
| FlightCalculator.GridVisitsEveryCell | flight_calculator.py:21-31 | every cell of the requested grid appears somewhere in the generated path |
| FlightCalculator.TurnColumn | flight_calculator.py:29-30 | the last step of a row and the first step of the next row visit the same column |
| FlightCalculator.GridPathRowTurn | flight_calculator.py:29-31 | the last point of a row and the first of the next row are in the same column (the turn is a short step) |
| FlightCalculator.GridRowTurn | flight_calculator.py:29-31 | the same row-turn property for the generated path |
| FlightCalculator.GridRowSharesLatitude | flight_calculator.py:25-26 | all waypoints of one row have the same latitude |
| FlightCalculator.GridPathLatitudeIncreases | flight_calculator.py:25-26 | with positive row spacing, a later row lies strictly further north |
| FlightCalculator.GridLatitudeIncreasesByRow | flight_calculator.py:14-26 | with positive fov and overlap below 100%, the generated rows go strictly northward |
| FlightCalculator.CellRowsAscend | flight_calculator.py:25 | a higher row index gives a larger north offset |
| FlightCalculator.CellMirror | flight_calculator.py:18-24 | column k and column cols−1−k have opposite east offsets |
| FlightCalculator.GridCentred | flight_calculator.py:18-27 | the grid is centred: mirrored cells lie symmetrically about the centre longitude and latitude |
| FlightCalculator.GridIgnoresUnusedInputs | flight_calculator.py:11-33 | altitude, speed, interval, direction and rotation do not change the path |
| FlightCalculator.SpacingAntitone | flight_calculator.py:13-14 | a larger lap percentage gives a narrower spacing |
| FlightCalculator.GridCountMonotone | flight_calculator.py:13-16 | raising overlap and sidelap (staying below 100%) never reduces the rows, the columns or the number of waypoints |
| FlightCalculator.BaseRadius | flight_calculator.py:37-39 | the radius is half the larger side when that is at least 5, otherwise the 100 m fallback; it is always at least 5 |
| FlightCalculator.LayerShrinkLinear | flight_calculator.py:42 | layer 0 has the base radius and each layer is 10% of the base radius smaller than the previous one |
| FlightCalculator.Ring | flight_calculator.py:43-46 | each ring has 24 points, point j at angle 15·j degrees on the layer radius |
| FlightCalculator.GenerateObliquePath | flight_calculator.py:35-50 | the path has 24 points per layer and is empty iff layers ≤ 0 |
| FlightCalculator.ObliqueOrder | flight_calculator.py:41-49 | waypoint 24·k + j is point j of layer k, projected |
| FlightCalculator.ObliqueCovers | flight_calculator.py:41-49 | every index of the path is some point j of some layer k |
| FlightCalculator.ObliqueIgnoresUnusedInputs | flight_calculator.py:35-50 | altitude and tilt do not change the oblique path |
| FlightCalculator.RingOffsetOnCircle | flight_calculator.py:42-46 | every ring point is at distance r_k from the centre (dx² + dy² = r_k²) |
| FlightCalculator.PathDistance | flight_calculator.py:63 | the sum of the legs between consecutive waypoints; 0 for a path of at most one point |
| FlightCalculator.PathDistanceNonNegative | flight_calculator.py:63 | the summed distance is non-negative when every leg is |
| FlightCalculator.PathDistanceConcat | flight_calculator.py:63 | the distance of a joined path is the two distances plus the joining leg |
| FlightCalculator.BatteryMinutesOf | flight_calculator.py:65 | the battery time is the drone's value, or 20 minutes when absent |
| FlightCalculator.BatteryCount | flight_calculator.py:66 | at least one battery; for positive battery time, b batteries cover the flight and b−1 do not (unless b = 1) |
| FlightCalculator.EstimateFlightMetrics | flight_calculator.py:52-67 | distance is the sum of legs; minutes·60·speed = distance·1000; battery count as above; a path of ≤ 1 point gives 0 km, 0 min, 1 battery |
| FlightCalculator.BatteryRounding | flight_calculator.py:66 | 20 minutes on the default battery needs 1 battery, 20.01 minutes needs 2 |
| FlightCalculator.TableUsesDefaultBattery | flight_calculator.py:65 | every tabled model uses the 20-minute default |
| DjiExport.GetActionParams | dji_export.py:12-19 | "Take Picture", "Start Recording" and "Stop Recording" map to types 2, 3 and 4; anything else maps to 0; the param is always 0 |
| DjiExport.DjiRows | dji_export.py:46-67 | one row per waypoint, in order, with latitude from y and longitude from x, the request's altitude and speed, the action's type and param, and every fixed column (heading 0, curve size 0.2, rotation 0, gimbal mode 0, pitch −90, second action 0/0, altitude mode 1, POI fields 0) |
| DjiExport.DjiRowsDefault | dji_export.py:21-30 | without an explicit action every row takes a photo (action type 2, param 0) |
| DjiExport.RowsRoundTrip | dji_export.py:46-49 | reading longitude and latitude back from the rows gives the original path |
| DjiExport.CloseIndicesSpec | dji_export.py:117-122 | the flagged indices are exactly the i with points i and i+1 too close, in increasing order |
| DjiExport.CheckPathCount | dji_export.py:112-114 | the count error is present iff there are more than 99 waypoints, and it comes first |
| DjiExport.PairErrorSound | dji_export.py:117-122 | a too-close error for pair i is only reported when that pair is close |
| DjiExport.PairErrorComplete | dji_export.py:117-122 | every close pair i gets a too-close error |
| DjiExport.CheckPathPairs | dji_export.py:117-122 | a too-close error (i+1, i+2) is present iff consecutive points i, i+1 are too close |
| DjiExport.CheckPathShape | dji_export.py:113-122 | every error is the count error or a too-close pair of consecutive 1-based indices; errors appear in order |
| DjiExport.CheckPath | dji_export.py:106-124 | the full contract of the validator over any closeness test |
| DjiExport.ValidateDjiParameters | dji_export.py:106-124 | the validator as written: the count check, then a check of the degree distance against 2 |
| DjiExport.NatToString | dji_export.py:122 | the decimal rendering of an index: at least one digit, only digits, no leading zero, and reading the digits back gives the number |
| DjiExport.TooCloseMessageExample | dji_export.py:122 | the too-close message for the pair (11, 12) renders both indices in decimal inside the source's wording |
| DjiExport.ErrorMessage | dji_export.py:113-122 | the count message and the too-close message with both 1-based indices in decimal |
| DjiExport.DjiMessages | dji_export.py:113-124 | one message per finding, in the validator's order, with the source's wording for the count error and the too-close error |
| DjiExport.DegreeDistanceFlagsDistantWaypoints | dji_export.py:120-121 | waypoints 111 m apart are reported as too close |
| DjiExport.ValidateDjiParametersMetric | dji_export.py:116-122 | the corrected validator flags a pair iff its ground distance in metres is below 2 |
| DjiExport.MetricCheckAcceptsDistantWaypoints | dji_export.py:116-122 | the corrected validator accepts the same 111 m pair |
| MapUtils.Min | map_utils.py:128 | `min` of a non-empty list is in the list and below every element |
| MapUtils.Max | map_utils.py:128 | `max` of a non-empty list is in the list and above every element |
| MapUtils.PolygonBounds | map_utils.py:122-148 | bounds contain every vertex of the first ring and are attained; the centre is the midpoint; width and height are the haversine distances along the south-west edges |
| MapUtils.CircleBounds | map_utils.py:151-169 | the centre is the point; width = height = 2·radius; the bounds lie symmetrically at radius/111000 and radius/(111000·cos lat) |
| MapUtils.CalculateAreaBounds | map_utils.py:119-174 | a result exists iff the geometry is a polygon with a non-empty first ring or a point with a radius; the polygon and circle results are those of the two branches; otherwise None |
| MapUtils.PolygonSizeNonNegative | map_utils.py:136-137 | the polygon's width and height are non-negative when the distance is |
| MapUtils.CircleBoundsAreProjections | map_utils.py:157-166 | the circle's bounds are the compass points: maxLat and minLat are the latitudes of the projections of (0, ±r) metres, maxLon and minLon the longitudes of the projections of (±r, 0); the north-east and south-west corners are the projections of (r, r) and (-r, -r) |
| Units.FeetToMeters | main.py:23-24 | multiplying the result by 3.28084 gives back the feet |
| Units.MetersToFeet | main.py:20-21 | converting back to metres recovers the input; sign is kept; zero iff zero |
| Units.MphToMps | main.py:29-30 | multiplying the result by 2.23694 gives back the mph |
| Units.MpsToMph | main.py:26-27 | converting back to m/s recovers the input; sign is kept; zero iff zero |
| Units.FeetRoundTrip | main.py:20-24 | metres → feet → metres and feet → metres → feet are identities |
| Units.MphRoundTrip | main.py:26-30 | m/s → mph → m/s and mph → m/s → mph are identities |
| Units.ConversionsStrictlyMonotone | main.py:20-30 | all four conversions are strictly increasing |

## Left out

- User interface, maps, file I/O and the network are not modelled. This covers the CSV header, the file write, KML/KMZ creation, timestamps, the Streamlit pages and the inline area extraction in app.py. None of them computes anything the core relies on.
- Trigonometry, square roots and haversine are not modelled. They enter as opaque parameters, and the model uses exact reals instead of floating point, so rounding is not modelled.
- Python exceptions are not modelled. The model requires only what the code divides by:
  - a non-zero spacing for the grid;
  - a non-zero cosine of the latitude;
  - a non-zero speed and battery time.
- MapUtils.CalculateAreaBounds: requires a non-zero cosine of a circle's latitude. In the code that division is done in numpy floats, which give infinity instead of raising, and the cosine of a real latitude is never exactly zero in floating point.
- MapUtils.CalculateAreaBounds: a geometry without a `type` key, or with coordinates of the wrong shape, raises inside the `try` and gives None. The model's geometry datatype cannot express a missing key, so it covers these cases only where it can represent them.
- DjiExport.ValidateDjiParameters: the findings are the datatype `DjiError`; their message strings, including the count message, are produced separately by `ErrorMessage` and `DjiMessages`. The square root is replaced by the equivalent comparison of the squared distance with 4. The unused `params` and `drone_model` arguments are dropped.
- FlightCalculator.GenerateGridPath: `altitude`, `speed`, `interval`, `direction` and `rotation_deg` are accepted and ignored, as in the code.
- FlightCalculator.GenerateObliquePath: `altitude` and `tilt` are accepted and ignored, as in the code. Layer index 10 has radius 0 and radii are negative from layer index 11 on; the model keeps that.
- FlightCalculator.ValidateParameters: only altitude and speed are compared, as in the code. The other table fields (min altitude, fov, interval) are not checked.

## Findings

| source | as written | input that shows it | evidently intended | confidence | as-written member | corrected member |
|---|---|---|---|---|---|---|
| dji_export.py:120-121 | the distance between consecutive waypoints is computed in degrees of lon/lat and compared with 2, as if it were metres | path [(0, 0), (0.001, 0)]: the points are 111 m apart, yet the pair is reported as too close | compare the ground distance in metres with the 2 m minimum | not executed | DjiExport.DegreeDistanceFlagsDistantWaypoints | DjiExport.ValidateDjiParametersMetric |

=== FILE: dji_export.dfy ===
/** The DJI-specific export helpers (dji_export.py): the waypoint action table, the
    per-waypoint CSV row, and the DJI mission validator. */
module DjiExport {
  import opened Geo
  import opened FlightCalculator

  // ---------------------------------------------------------------------------
  // Actions
  // ---------------------------------------------------------------------------

  /** A DJI action: its type code and its parameter. */
  datatype ActionCode = ActionCode(kind: int, param: int)

  /** `get_action_params`: the three named actions, and "no action" for anything else. */
  function GetActionParams(action: string): (a: ActionCode)
    ensures a.param == 0
    ensures a.kind == 2 <==> action == "Take Picture"
    ensures a.kind == 3 <==> action == "Start Recording"
    ensures a.kind == 4 <==> action == "Stop Recording"
    ensures a.kind in {0, 2, 3, 4}
  {
    if action == "Take Picture" then ActionCode(2, 0)
    else if action == "Start Recording" then ActionCode(3, 0)
    else if action == "Stop Recording" then ActionCode(4, 0)
    else ActionCode(0, 0)
  }

  // ---------------------------------------------------------------------------
  // Waypoint rows
  // ---------------------------------------------------------------------------

  /** One row of the DJI waypoint CSV, one field per column header. */
  datatype DjiRow = DjiRow(
    latitude: real, longitude: real, altitude: real,
    heading: int, curveSize: real, rotationDir: int,
    gimbalMode: int, gimbalPitchAngle: int, actionType1: int,
    actionParam1: int, actionType2: int, actionParam2: int,
    altitudeMode: int, speed: real, poiLatitude: int,
    poiLongitude: int, poiAltitude: int, poiAltitudeMode: int)

  /** Gimbal straight down. */
  const NadirPitch: int := -90
  /** Altitudes are relative to the take-off point. */
  const RelativeAltitude: int := 1

  /** The row written for waypoint `w`: latitude from its second component, longitude
      from its first; every other field is fixed or comes from `p` and the action. */
  function WaypointRow(w: Waypoint, p: FlightParams, a: ActionCode): DjiRow
  {
    DjiRow(w.lat, w.lon, p.altitude,
           0, 0.2, 0,
           0, NadirPitch, a.kind,
           a.param, 0, 0,
           RelativeAltitude, p.speed, 0,
           0, 0, 0)
  }

  /** The rows `create_dji_waypoint_file` writes, in path order. */
  function DjiRows(path: seq<Waypoint>, p: FlightParams, action: string): (rows: seq<DjiRow>)
    ensures |rows| == |path|
    ensures forall i :: 0 <= i < |path| ==>
              && rows[i].latitude == path[i].lat && rows[i].longitude == path[i].lon
              && rows[i].altitude == p.altitude && rows[i].speed == p.speed
              && rows[i].gimbalPitchAngle == -90 && rows[i].altitudeMode == 1
              && rows[i].actionType1 == GetActionParams(action).kind && rows[i].actionParam1 == 0
              && rows[i].actionType2 == 0 && rows[i].actionParam2 == 0
              && rows[i].heading == 0 && rows[i].curveSize == 0.2
              && rows[i].rotationDir == 0 && rows[i].gimbalMode == 0
              && rows[i].poiLatitude == 0 && rows[i].poiLongitude == 0
              && rows[i].poiAltitude == 0 && rows[i].poiAltitudeMode == 0
    ensures forall i :: 0 <= i < |path| ==> rows[i] == WaypointRow(path[i], p, GetActionParams(action))
  {
    var a := GetActionParams(action);
    seq(|path|, i requires 0 <= i < |path| => WaypointRow(path[i], p, a))
  }

  /** The action `create_dji_waypoint_file` uses when none is given. */
  const DefaultAction: string := "Take Picture"

  /** The rows written when the caller passes no action: every waypoint takes a photo. */
  function DjiRowsDefault(path: seq<Waypoint>, p: FlightParams): (rows: seq<DjiRow>)
    ensures |rows| == |path|
    ensures forall i :: 0 <= i < |path| ==> rows[i].actionType1 == 2 && rows[i].actionParam1 == 0
    ensures rows == DjiRows(path, p, DefaultAction)
  {
    DjiRows(path, p, DefaultAction)
  }

  /** The path a set of rows describes: `(longitude, latitude)` of each row. */
  function RowsPath(rows: seq<DjiRow>): (path: seq<Waypoint>)
  {
    seq(|rows|, i requires 0 <= i < |rows| => Waypoint(rows[i].longitude, rows[i].latitude))
  }

  /** Reading the path back from the rows gives the exported path: no waypoint is
      dropped, duplicated, reordered or has its coordinates swapped. */
  lemma RowsRoundTrip(path: seq<Waypoint>, p: FlightParams, action: string)
    ensures RowsPath(DjiRows(path, p, action)) == path
  {
    var back := RowsPath(DjiRows(path, p, action));
    assert |back| == |path|;
    forall i | 0 <= i < |path| ensures back[i] == path[i] {
    }
  }

  // ---------------------------------------------------------------------------
  // Mission validation
  // ---------------------------------------------------------------------------

  /** DJI missions hold at most this many waypoints. */
  const MaxWaypoints: nat := 99

  /** The validator's findings: the count check, and a too-close pair with its 1-based indices. */
  datatype DjiError = TooManyWaypoints | TooClose(first: nat, second: nat)

  /** Decimal digit `d`. */
  function Digit(d: nat): char
    requires d < 10
  {
    ('0' as int + d) as char
  }

  /** The value of a string of decimal digits. */
  function DigitsValue(s: string): nat
    requires forall i :: 0 <= i < |s| ==> '0' <= s[i] <= '9'
  {
    if |s| == 0 then 0 else DigitsValue(s[..|s| - 1]) * 10 + (s[|s| - 1] as int - '0' as int)
  }

  /** Python's decimal rendering of a natural number, as an f-string writes `{i+1}`. */
  function NatToString(n: nat): (s: string)
    ensures |s| >= 1
    ensures forall i :: 0 <= i < |s| ==> '0' <= s[i] <= '9'
    ensures DigitsValue(s) == n
    ensures |s| > 1 ==> s[0] != '0'
  {
    if n < 10 then [Digit(n)]
    else
      var prefix := NatToString(n / 10);
      var s := prefix + [Digit(n % 10)];
      assert s[..|s| - 1] == prefix;
      s
  }

  /** The message the validator appends for each finding. */
  function ErrorMessage(e: DjiError): string
  {
    match e
    case TooManyWaypoints => "DJI drones support maximum 99 waypoints per mission"
    case TooClose(first, second) =>
      "Waypoints " + NatToString(first) + " and " + NatToString(second) + " are too close (minimum 2m required)"
  }

  /** Rendering the 1-based index of the twelfth waypoint. */
  lemma TooCloseMessageExample()
    ensures ErrorMessage(TooClose(11, 12)) == "Waypoints " + "11" + " and " + "12" + " are too close (minimum 2m required)"
  {
    assert NatToString(1) == "1";
    assert NatToString(11) == "11" by { assert NatToString(11) == NatToString(1) + [Digit(1)]; }
    assert NatToString(12) == "12" by { assert NatToString(12) == NatToString(1) + [Digit(2)]; }
  }

  /** Squared Euclidean distance in raw coordinate units (degrees of lon/lat). */
  function SquaredDistance(a: Waypoint, b: Waypoint): real
  {
    (b.lon - a.lon) * (b.lon - a.lon) + (b.lat - a.lat) * (b.lat - a.lat)
  }

  /** Consecutive pairs of an `n`-point path: `range(n - 1)` is empty for `n <= 1`. */
  function PairCount(n: nat): nat
  {
    if n >= 1 then n - 1 else 0
  }

  /** The pair loop over the first `m` pairs: the 0-based index `i` of every close pair,
      in loop order. */
  function CloseIndices(path: seq<Waypoint>, m: nat, tooClose: (Waypoint, Waypoint) -> bool): seq<nat>
    requires m == 0 || m < |path|
    decreases m
  {
    if m == 0 then []
    else
      CloseIndices(path, m - 1, tooClose)
      + (if tooClose(path[m - 1], path[m]) then [m - 1] else [])
  }

  /** The loop collects exactly the close pairs among the first `m`, in increasing order. */
  lemma {:induction false} CloseIndicesSpec(path: seq<Waypoint>, m: nat, tooClose: (Waypoint, Waypoint) -> bool)
    requires m == 0 || m < |path|
    ensures |CloseIndices(path, m, tooClose)| <= m
    ensures forall j :: 0 <= j < |CloseIndices(path, m, tooClose)| ==>
              CloseIndices(path, m, tooClose)[j] < m &&
              tooClose(path[CloseIndices(path, m, tooClose)[j]], path[CloseIndices(path, m, tooClose)[j] + 1])
    ensures forall i :: 0 <= i < m && tooClose(path[i], path[i + 1]) ==> i in CloseIndices(path, m, tooClose)
    ensures forall a, b :: 0 <= a < b < |CloseIndices(path, m, tooClose)| ==>
              CloseIndices(path, m, tooClose)[a] < CloseIndices(path, m, tooClose)[b]
    decreases m
  {
    if m > 0 {
      CloseIndicesSpec(path, m - 1, tooClose);
      var prev := CloseIndices(path, m - 1, tooClose);
      var all := CloseIndices(path, m, tooClose);
      assert all == prev + (if tooClose(path[m - 1], path[m]) then [m - 1] else []);
      assert forall j :: 0 <= j < |prev| ==> all[j] == prev[j];
    }
  }

  /** The messages for a list of close pairs, with 1-based waypoint numbers. */
  function TooCloseErrors(idx: seq<nat>): (errors: seq<DjiError>)
    ensures |errors| == |idx|
    ensures forall j :: 0 <= j < |idx| ==> errors[j] == TooClose(idx[j] + 1, idx[j] + 2)
  {
    seq(|idx|, j requires 0 <= j < |idx| => TooClose(idx[j] + 1, idx[j] + 2))
  }

  /** Position of an error in the validator's output order: the count error first, then
      pair errors by their first waypoint number. */
  function Rank(e: DjiError): nat
  {
    match e
    case TooManyWaypoints => 0
    case TooClose(first, _) => first
  }

  /** The shape of `validate_dji_parameters` for a given closeness test: the count check,
      then every pair check in index order; nothing is short-circuited. */
  function CheckPath(path: seq<Waypoint>, tooClose: (Waypoint, Waypoint) -> bool): (errors: seq<DjiError>)
    ensures TooManyWaypoints in errors <==> |path| > MaxWaypoints
    ensures |path| > MaxWaypoints ==> errors[0] == TooManyWaypoints
    ensures forall i :: 0 <= i < PairCount(|path|) ==>
              (TooClose(i + 1, i + 2) in errors <==> tooClose(path[i], path[i + 1]))
    ensures forall j :: 0 <= j < |errors| ==>
              errors[j] == TooManyWaypoints ||
              (errors[j].TooClose? && 1 <= errors[j].first < |path| && errors[j].second == errors[j].first + 1)
    ensures |errors| <= 1 + PairCount(|path|)
    ensures forall a, b :: 0 <= a < b < |errors| ==> Rank(errors[a]) < Rank(errors[b])
  {
    var n := PairCount(|path|);
    var idx := CloseIndices(path, n, tooClose);
    CloseIndicesSpec(path, n, tooClose);
    var count := if |path| > MaxWaypoints then [TooManyWaypoints] else [];
    var pairs := TooCloseErrors(idx);
    CheckPathCount(path, tooClose, idx, count);
    CheckPathPairs(path, tooClose, idx, count);
    CheckPathShape(path, tooClose, idx, count);
    count + pairs
  }

  /** `idx` lists exactly the close pairs of `path`, in increasing order. */
  ghost predicate ClosePairList(path: seq<Waypoint>, tooClose: (Waypoint, Waypoint) -> bool, idx: seq<nat>)
  {
    && |idx| <= PairCount(|path|)
    && (forall j :: 0 <= j < |idx| ==> idx[j] < PairCount(|path|) && tooClose(path[idx[j]], path[idx[j] + 1]))
    && (forall i :: 0 <= i < PairCount(|path|) && tooClose(path[i], path[i + 1]) ==> i in idx)
    && (forall a, b :: 0 <= a < b < |idx| ==> idx[a] < idx[b])
  }

  /** The count error comes first and appears exactly when the path is too long. */
  lemma CheckPathCount(path: seq<Waypoint>, tooClose: (Waypoint, Waypoint) -> bool, idx: seq<nat>, count: seq<DjiError>)
    requires count == if |path| > MaxWaypoints then [TooManyWaypoints] else []
    ensures TooManyWaypoints in count + TooCloseErrors(idx) <==> |path| > MaxWaypoints
    ensures |path| > MaxWaypoints ==> (count + TooCloseErrors(idx))[0] == TooManyWaypoints
  {
    assert TooManyWaypoints !in TooCloseErrors(idx);
  }

  /** A pair error appears exactly for each close pair. */
  lemma CheckPathPairs(path: seq<Waypoint>, tooClose: (Waypoint, Waypoint) -> bool, idx: seq<nat>, count: seq<DjiError>)
    requires ClosePairList(path, tooClose, idx)
    requires count == if |path| > MaxWaypoints then [TooManyWaypoints] else []
    ensures forall i :: 0 <= i < PairCount(|path|) ==>
              (TooClose(i + 1, i + 2) in count + TooCloseErrors(idx) <==> tooClose(path[i], path[i + 1]))
  {
    forall i | 0 <= i < PairCount(|path|)
      ensures TooClose(i + 1, i + 2) in count + TooCloseErrors(idx) <==> tooClose(path[i], path[i + 1])
    {
      if TooClose(i + 1, i + 2) in count + TooCloseErrors(idx) {
        PairErrorSound(path, tooClose, idx, count, i);
      }
      if tooClose(path[i], path[i + 1]) {
        PairErrorComplete(path, tooClose, idx, count, i);
      }
    }
  }

  /** A pair error is only reported for a close pair. */
  lemma PairErrorSound(path: seq<Waypoint>, tooClose: (Waypoint, Waypoint) -> bool, idx: seq<nat>, count: seq<DjiError>, i: nat)
    requires ClosePairList(path, tooClose, idx)
    requires count == if |path| > MaxWaypoints then [TooManyWaypoints] else []
    requires i < PairCount(|path|) && TooClose(i + 1, i + 2) in count + TooCloseErrors(idx)
    ensures tooClose(path[i], path[i + 1])
  {
    var all := count + TooCloseErrors(idx);
    var j :| 0 <= j < |all| && all[j] == TooClose(i + 1, i + 2);
    assert j >= |count|;
    assert idx[j - |count|] == i;
  }

  /** Every close pair is reported. */
  lemma PairErrorComplete(path: seq<Waypoint>, tooClose: (Waypoint, Waypoint) -> bool, idx: seq<nat>, count: seq<DjiError>, i: nat)
    requires ClosePairList(path, tooClose, idx)
    requires count == if |path| > MaxWaypoints then [TooManyWaypoints] else []
    requires i < PairCount(|path|) && tooClose(path[i], path[i + 1])
    ensures TooClose(i + 1, i + 2) in count + TooCloseErrors(idx)
  {
    var j :| 0 <= j < |idx| && idx[j] == i;
    assert (count + TooCloseErrors(idx))[|count| + j] == TooClose(i + 1, i + 2);
  }

  /** Pair errors name consecutive waypoints of the path, and the output is in rank order. */
  lemma CheckPathShape(path: seq<Waypoint>, tooClose: (Waypoint, Waypoint) -> bool, idx: seq<nat>, count: seq<DjiError>)
    requires ClosePairList(path, tooClose, idx)
    requires count == if |path| > MaxWaypoints then [TooManyWaypoints] else []
    ensures forall j :: 0 <= j < |count + TooCloseErrors(idx)| ==>
              (count + TooCloseErrors(idx))[j] == TooManyWaypoints ||
              ((count + TooCloseErrors(idx))[j].TooClose? && 1 <= (count + TooCloseErrors(idx))[j].first < |path| &&
               (count + TooCloseErrors(idx))[j].second == (count + TooCloseErrors(idx))[j].first + 1)
    ensures forall a, b :: 0 <= a < b < |count + TooCloseErrors(idx)| ==>
              Rank((count + TooCloseErrors(idx))[a]) < Rank((count + TooCloseErrors(idx))[b])
  {
    var all := count + TooCloseErrors(idx);
    forall a, b | 0 <= a < b < |all| ensures Rank(all[a]) < Rank(all[b]) {
      if a >= |count| {
        assert idx[a - |count|] < idx[b - |count|];
      }
    }
  }

  /** The code's closeness test: Euclidean distance below 2, compared in degrees. */
  predicate CloseInDegrees(a: Waypoint, b: Waypoint)
  {
    SquaredDistance(a, b) < 4.0
  }

  /** `validate_dji_parameters` as written (`params` and `drone_model` are unused). */
  function ValidateDjiParameters(path: seq<Waypoint>): (errors: seq<DjiError>)
    ensures TooManyWaypoints in errors <==> |path| > MaxWaypoints
    ensures forall i :: 0 <= i < PairCount(|path|) ==>
              (TooClose(i + 1, i + 2) in errors <==> SquaredDistance(path[i], path[i + 1]) < 4.0)
    ensures |errors| <= 1 + PairCount(|path|)
  {
    CheckPath(path, CloseInDegrees)
  }

  /** The strings `validate_dji_parameters` returns, one per finding, in order. */
  function DjiMessages(path: seq<Waypoint>): (msgs: seq<string>)
    ensures |msgs| == |ValidateDjiParameters(path)|
    ensures forall i :: 0 <= i < |msgs| ==> msgs[i] == ErrorMessage(ValidateDjiParameters(path)[i])
  {
    var errors := ValidateDjiParameters(path);
    seq(|errors|, i requires 0 <= i < |errors| => ErrorMessage(errors[i]))
  }

  /** Two waypoints 111 m apart on the equator, by the planner's own projection, are
      reported as closer than 2 m: the test compares degrees with metres. */
  lemma DegreeDistanceFlagsDistantWaypoints()
    ensures var path := [Waypoint(0.0, 0.0), Waypoint(0.001, 0.0)];
            && Unproject(0.0, 0.0, 1.0, path[1]).dx == 111.0
            && ValidateDjiParameters(path) == [TooClose(1, 2)]
  {
    var path := [Waypoint(0.0, 0.0), Waypoint(0.001, 0.0)];
    assert CloseInDegrees(path[0], path[1]);
    assert CloseIndices(path, 1, CloseInDegrees) == [0];
  }

  /** The check as evidently intended: `metres` is the ground distance between two
      waypoints (for instance the haversine leg), compared with the 2 m minimum. */
  function ValidateDjiParametersMetric(path: seq<Waypoint>, metres: (Waypoint, Waypoint) -> real): (errors: seq<DjiError>)
    ensures TooManyWaypoints in errors <==> |path| > MaxWaypoints
    ensures forall i :: 0 <= i < PairCount(|path|) ==>
              (TooClose(i + 1, i + 2) in errors <==> metres(path[i], path[i + 1]) < 2.0)
    ensures |errors| <= 1 + PairCount(|path|)
  {
    CheckPath(path, (a, b) => metres(a, b) < 2.0)
  }

  /** With a ground distance, the 111 m pair above passes. */
  lemma MetricCheckAcceptsDistantWaypoints(metres: (Waypoint, Waypoint) -> real)
    requires metres(Waypoint(0.0, 0.0), Waypoint(0.001, 0.0)) == 111.0
    ensures ValidateDjiParametersMetric([Waypoint(0.0, 0.0), Waypoint(0.001, 0.0)], metres) == []
  {
    var path := [Waypoint(0.0, 0.0), Waypoint(0.001, 0.0)];
    assert CloseIndices(path, 1, (a, b) => metres(a, b) < 2.0) == [];
  }
}

=== FILE: drone_specs.dfy ===
/** The per-model operating envelope table (drone_specs.py). */
module DroneSpecs {
  import opened Options

  /** One model's envelope. Every key of the table's inner dictionaries is optional,
      because the consumers read them with `dict.get(key, default)`. */
  datatype Envelope = Envelope(
    maxSpeed: Option<real>,        // m/s
    minAltitude: Option<real>,     // m
    maxAltitude: Option<real>,     // m
    cameraFov: Option<real>,       // degrees
    minInterval: Option<real>,     // s
    batteryMinutes: Option<real>)  // min

  /** An entry as the table writes it: five keys and no `battery_minutes`. */
  function Entry(maxSpeed: real): Envelope
  {
    Envelope(Some(maxSpeed), Some(2.0), Some(120.0), Some(82.0), Some(0.5), None)
  }

  const Models: seq<string> :=
    ["DJI Mavic 3 Pro", "DJI Mini 4 Pro", "DJI Mini 3 Pro", "DJI Mini 3", "DJI Air 3", "DJI Air 3S"]

  /** `DRONE_SPECS`: model name to envelope. */
  const Table: map<string, Envelope> := map[
    "DJI Mavic 3 Pro" := Entry(21.0),
    "DJI Mini 4 Pro" := Entry(16.0),
    "DJI Mini 3 Pro" := Entry(16.0),
    "DJI Mini 3" := Entry(16.0),
    "DJI Air 3" := Entry(19.0),
    "DJI Air 3S" := Entry(19.0)]

  /** The table holds exactly the six listed models, all distinct. */
  lemma TableHasSixModels()
    ensures Table.Keys == set m | m in Models
    ensures forall i, j :: 0 <= i < j < |Models| ==> Models[i] != Models[j]
    ensures |Table| == 6
  {
    assert Models[3] != Models[5] by { assert Models[3][9] != Models[5][9]; }
    assert Models[3] != Models[4] by { assert Models[3][4] != Models[4][4]; }
    assert Models[4] != Models[5] by { assert |Models[4]| != |Models[5]|; }
    assert Models[1] != Models[2] by { assert Models[1][9] != Models[2][9]; }
    var m0: map<string, Envelope> := map[];
    var m1 := m0[Models[0] := Entry(21.0)];
    var m2 := m1[Models[1] := Entry(16.0)];
    var m3 := m2[Models[2] := Entry(16.0)];
    var m4 := m3[Models[3] := Entry(16.0)];
    var m5 := m4[Models[4] := Entry(19.0)];
    var m6 := m5[Models[5] := Entry(19.0)];
    assert |m1| == 1;
    assert Models[1] !in m1;
    assert |m2| == 2;
    assert Models[2] !in m2;
    assert |m3| == 3;
    assert Models[3] !in m3;
    assert |m4| == 4;
    assert Models[4] !in m4;
    assert |m5| == 5;
    assert Models[5] !in m5;
    assert |m6| == 6;
    assert m6 == Table;
  }

  /** Every model flies between 2 m and 120 m, so its altitude range is non-empty. */
  lemma AltitudeRangeOfEveryModel(model: string)
    requires model in Table
    ensures Table[model].minAltitude == Some(2.0)
    ensures Table[model].maxAltitude == Some(120.0)
    ensures Table[model].minAltitude.value < Table[model].maxAltitude.value
  {
  }

  /** Every model defines its top speed, and it is 16, 19 or 21 m/s. */
  lemma MaxSpeedOfEveryModel(model: string)
    requires model in Table
    ensures Table[model].maxSpeed.Some?
    ensures Table[model].maxSpeed.value in {16.0, 19.0, 21.0}
  {
  }

  /** No model defines a battery endurance. */
  lemma NoModelDefinesBattery(model: string)
    requires model in Table
    ensures Table[model].batteryMinutes == None
  {
  }
}

=== FILE: flight_calculator.dfy ===
/** The planning core (flight_calculator.py): the parameter validator, the lawnmower
    grid generator, the orbit-ring generator and the flight metrics estimator. */
module FlightCalculator {
  import opened Options
  import opened Numeric
  import opened Sequences
  import opened Geo
  import opened DroneSpecs

  // ---------------------------------------------------------------------------
  // Parameter validation
  // ---------------------------------------------------------------------------

  /** Defaults used when an envelope omits a key. */
  const DefaultMaxAltitude: real := 120.0
  const DefaultMaxSpeed: real := 15.0
  const DefaultBatteryMinutes: real := 20.0

  /** The request dictionary the caller builds; only `altitude` and `speed` are read. */
  datatype FlightParams = FlightParams(
    altitude: real, speed: real, interval: real, overlap: real, sidelap: real, fov: real)

  /** The two violations the validator can report. */
  datatype Violation = AltitudeTooHigh | SpeedTooHigh

  /** The message the code appends for each violation. */
  function Message(v: Violation): string
  {
    match v
    case AltitudeTooHigh => "Altitude exceeds drone's max altitude."
    case SpeedTooHigh => "Speed exceeds drone's max speed."
  }

  function MaxAltitudeOf(e: Envelope): real
  {
    e.maxAltitude.GetOr(DefaultMaxAltitude)
  }

  function MaxSpeedOf(e: Envelope): real
  {
    e.maxSpeed.GetOr(DefaultMaxSpeed)
  }

  /** `validate_parameters`: both checks run; a limit itself is accepted. */
  function ValidateParameters(p: FlightParams, e: Envelope): (errors: seq<Violation>)
    ensures errors == [] <==> p.altitude <= MaxAltitudeOf(e) && p.speed <= MaxSpeedOf(e)
    ensures AltitudeTooHigh in errors <==> p.altitude > MaxAltitudeOf(e)
    ensures SpeedTooHigh in errors <==> p.speed > MaxSpeedOf(e)
    ensures |errors| <= 2
    ensures |errors| == 2 <==> p.altitude > MaxAltitudeOf(e) && p.speed > MaxSpeedOf(e)
    ensures forall i, j :: 0 <= i < j < |errors| ==> errors[i] == AltitudeTooHigh && errors[j] == SpeedTooHigh
  {
    (if p.altitude > MaxAltitudeOf(e) then [AltitudeTooHigh] else [])
    + (if p.speed > MaxSpeedOf(e) then [SpeedTooHigh] else [])
  }

  /** The messages in the order the code appends them. */
  function ValidationMessages(p: FlightParams, e: Envelope): (msgs: seq<string>)
    ensures |msgs| == |ValidateParameters(p, e)|
    ensures forall i :: 0 <= i < |msgs| ==> msgs[i] == Message(ValidateParameters(p, e)[i])
  {
    var errors := ValidateParameters(p, e);
    seq(|errors|, i requires 0 <= i < |errors| => Message(errors[i]))
  }

  /** Interval, overlaps, field of view and every envelope key other than the two
      maxima have no influence on the verdict. */
  lemma ValidationReadsOnlyAltitudeAndSpeed(p: FlightParams, q: FlightParams, e: Envelope, f: Envelope)
    requires p.altitude == q.altitude && p.speed == q.speed
    requires MaxAltitudeOf(e) == MaxAltitudeOf(f) && MaxSpeedOf(e) == MaxSpeedOf(f)
    ensures ValidateParameters(p, e) == ValidateParameters(q, f)
  {
  }

  /** For a model of the table, the limits are the table's own: 120 m and the model's
      speed; the 15 m/s default never applies. */
  lemma ValidationAgainstTable(p: FlightParams, model: string)
    requires model in Table
    ensures MaxSpeedOf(Table[model]) == Table[model].maxSpeed.value
    ensures ValidateParameters(p, Table[model]) == [] <==>
              p.altitude <= 120.0 && p.speed <= Table[model].maxSpeed.value
  {
    MaxSpeedOfEveryModel(model);
    AltitudeRangeOfEveryModel(model);
  }

  // ---------------------------------------------------------------------------
  // Lawnmower grid
  // ---------------------------------------------------------------------------

  /** The positional arguments of `generate_grid_path`. `fov` is used directly as
      a ground footprint length; `direction` and `rotationDeg` are accepted and ignored. */
  datatype GridRequest = GridRequest(
    areaWidth: real, areaHeight: real, overlap: real, sidelap: real,
    altitude: real, speed: real, interval: real, fov: real,
    centerLat: real, centerLon: real, direction: string, rotationDeg: real)

  /** The two divisions by a spacing raise `ZeroDivisionError` unless both spacings are non-zero. */
  predicate GridDefined(q: GridRequest)
  {
    q.fov != 0.0 && q.overlap != 100.0 && q.sidelap != 100.0
  }

  /** The footprint length less the overlapping percentage. */
  function Spacing(fov: real, lap: real): real
  {
    fov * (1.0 - lap / 100.0)
  }

  /** Distance between neighbouring columns. */
  function SpacingX(q: GridRequest): real
  {
    Spacing(q.fov, q.sidelap)
  }

  /** Distance between neighbouring rows. */
  function SpacingY(q: GridRequest): real
  {
    Spacing(q.fov, q.overlap)
  }

  lemma SpacingNonZero(fov: real, overlap: real)
    requires fov != 0.0 && overlap != 100.0
    ensures Spacing(fov, overlap) != 0.0
  {
    var f := 1.0 - overlap / 100.0;
    assert f != 0.0;
    MulNonZero(fov, f);
  }

  /** How many grid lines fit in `extent`: the truncated quotient, but never fewer than one. */
  function GridCount(extent: real, spacing: real): (n: nat)
    requires spacing != 0.0
    ensures n >= 1
    ensures extent / spacing >= 1.0 ==> n as real <= extent / spacing < n as real + 1.0
    ensures extent / spacing < 1.0 ==> n == 1
  {
    MaxInt(1, Trunc(extent / spacing))
  }

  /** Shrinking the spacing never lowers the count. */
  lemma GridCountAntitone(extent: real, s1: real, s2: real)
    requires 0.0 < s2 <= s1
    ensures GridCount(extent, s1) <= GridCount(extent, s2)
  {
    if extent >= 0.0 {
      DivAntitone(extent, s1, s2);
      TruncMonotone(extent / s1, extent / s2);
    } else {
      assert extent / s1 < 0.0;
    }
  }

  /** Column and row counts with their spacings. */
  datatype GridLayout = GridLayout(cols: nat, rows: nat, spacingX: real, spacingY: real)

  function Layout(q: GridRequest): (l: GridLayout)
    requires GridDefined(q)
    ensures l.cols >= 1 && l.rows >= 1
  {
    SpacingNonZero(q.fov, q.sidelap);
    SpacingNonZero(q.fov, q.overlap);
    GridLayout(GridCount(q.areaWidth, SpacingX(q)), GridCount(q.areaHeight, SpacingY(q)), SpacingX(q), SpacingY(q))
  }

  /** Half the span of `n` lines `spacing` apart: the shift that centres them. */
  function HalfSpan(n: nat, spacing: real): real
  {
    (n - 1) as real / 2.0 * spacing
  }

  /** Local offset of the cell in row `row`, column `col`. */
  function CellOffset(l: GridLayout, row: int, col: int): Offset
  {
    Offset(-HalfSpan(l.cols, l.spacingX) + col as real * l.spacingX,
           -HalfSpan(l.rows, l.spacingY) + row as real * l.spacingY)
  }

  /** The column visited at step `k` of row `row`: left to right on even rows,
      right to left on odd rows. */
  function ColumnAt(row: int, k: int, cols: nat): int
  {
    if row % 2 == 1 then cols - 1 - k else k
  }

  /** Row `row` in flight order: built left to right, then reversed when `row` is odd. */
  function OrderedRow(l: GridLayout, row: nat): (r: seq<Offset>)
    ensures |r| == l.cols
    ensures forall k :: 0 <= k < l.cols ==> r[k] == CellOffset(l, row, ColumnAt(row, k, l.cols))
  {
    var points := seq(l.cols, col requires 0 <= col < l.cols => CellOffset(l, row, col));
    if row % 2 == 1 then Reverse(points) else points
  }

  /** Row `row` of the layout in flight order, as the block the outer loop appends. */
  function GridRows(l: GridLayout): nat -> seq<Offset>
  {
    (row: nat) => OrderedRow(l, row)
  }

  /** The rows of a layout, projected, in flight order: the body of the two loops of
      `generate_grid_path`. */
  function GridPath(l: GridLayout, centerLat: real, centerLon: real, cosLat: real): (path: seq<Waypoint>)
    requires cosLat != 0.0
    ensures |path| == l.rows * l.cols
  {
    BlocksLength(l.rows, l.cols, GridRows(l));
    ProjectAll(centerLat, centerLon, cosLat, Blocks(l.rows, GridRows(l)))
  }

  /** `generate_grid_path`. `cosLat` is `cos(radians(centerLat))`. */
  function GenerateGridPath(q: GridRequest, cosLat: real): (path: seq<Waypoint>)
    requires GridDefined(q)
    requires cosLat != 0.0
    ensures |path| == Layout(q).rows * Layout(q).cols
    ensures |path| >= 1
  {
    var l := Layout(q);
    assert l.rows * l.cols >= 1 * l.cols by { MulLeft(1, l.rows, l.cols); }
    GridPath(l, q.centerLat, q.centerLon, cosLat)
  }

  /** Layout-level form of `GridOrder`. */
  lemma GridPathOrder(l: GridLayout, centerLat: real, centerLon: real, cosLat: real, r: nat, k: nat)
    requires cosLat != 0.0
    requires r < l.rows && k < l.cols
    ensures BlockIndex(l.cols, r, k) < |GridPath(l, centerLat, centerLon, cosLat)|
    ensures GridPath(l, centerLat, centerLon, cosLat)[BlockIndex(l.cols, r, k)] ==
              Project(centerLat, centerLon, cosLat, CellOffset(l, r, ColumnAt(r, k, l.cols)))
  {
    BlocksIndex(l.rows, l.cols, GridRows(l));
  }

  /** The waypoint at path index `r * cols + k` is the cell of row `r`, column `k` on even
      rows and column `cols - 1 - k` on odd rows. */
  lemma GridOrder(q: GridRequest, cosLat: real, r: nat, k: nat)
    requires GridDefined(q) && cosLat != 0.0
    requires r < Layout(q).rows && k < Layout(q).cols
    ensures BlockIndex(Layout(q).cols, r, k) < |GenerateGridPath(q, cosLat)|
    ensures GenerateGridPath(q, cosLat)[BlockIndex(Layout(q).cols, r, k)] ==
              Project(q.centerLat, q.centerLon, cosLat, CellOffset(Layout(q), r, ColumnAt(r, k, Layout(q).cols)))
    ensures r % 2 == 0 ==> ColumnAt(r, k, Layout(q).cols) == k
    ensures r % 2 == 1 ==> ColumnAt(r, k, Layout(q).cols) == Layout(q).cols - 1 - k
  {
    GridPathOrder(Layout(q), q.centerLat, q.centerLon, cosLat, r, k);
  }

  /** Layout-level form of `GridCovers`. */
  lemma GridPathCovers(l: GridLayout, centerLat: real, centerLon: real, cosLat: real, i: nat)
    requires cosLat != 0.0
    requires i < |GridPath(l, centerLat, centerLon, cosLat)|
    ensures l.cols > 0 && i / l.cols < l.rows
    ensures GridPath(l, centerLat, centerLon, cosLat)[i] ==
              Project(centerLat, centerLon, cosLat, CellOffset(l, i / l.cols, ColumnAt(i / l.cols, i % l.cols, l.cols)))
  {
    var f := GridRows(l);
    var offsets := Blocks(l.rows, f);
    assert GridPath(l, centerLat, centerLon, cosLat) == ProjectAll(centerLat, centerLon, cosLat, offsets);
    BlocksLength(l.rows, l.cols, f);
    BlocksElement(l.rows, l.cols, f, i);
    assert offsets[i] == OrderedRow(l, i / l.cols)[i % l.cols];
  }

  /** Every waypoint is a grid cell: index `i` is step `i % cols` of row `i / cols`. */
  lemma GridCovers(q: GridRequest, cosLat: real, i: nat)
    requires GridDefined(q) && cosLat != 0.0
    requires i < |GenerateGridPath(q, cosLat)|
    ensures var l := Layout(q);
            i / l.cols < l.rows &&
            GenerateGridPath(q, cosLat)[i] ==
              Project(q.centerLat, q.centerLon, cosLat, CellOffset(l, i / l.cols, ColumnAt(i / l.cols, i % l.cols, l.cols)))
  {
    var l := Layout(q);
    assert GenerateGridPath(q, cosLat) == GridPath(l, q.centerLat, q.centerLon, cosLat);
    GridPathCovers(l, q.centerLat, q.centerLon, cosLat, i);
  }

  /** Visiting a row twice in flight order returns to the starting column. */
  lemma ColumnAtInvolution(row: int, c: int, cols: nat)
    ensures ColumnAt(row, ColumnAt(row, c, cols), cols) == c
    ensures 0 <= c < cols ==> 0 <= ColumnAt(row, c, cols) < cols
  {
  }

  /** Layout-level form of `GridVisitsEveryCell`. */
  lemma GridPathVisitsEveryCell(l: GridLayout, centerLat: real, centerLon: real, cosLat: real, r: nat, c: nat)
    requires cosLat != 0.0
    requires r < l.rows && c < l.cols
    ensures BlockIndex(l.cols, r, ColumnAt(r, c, l.cols)) < |GridPath(l, centerLat, centerLon, cosLat)|
    ensures GridPath(l, centerLat, centerLon, cosLat)[BlockIndex(l.cols, r, ColumnAt(r, c, l.cols))] ==
              Project(centerLat, centerLon, cosLat, CellOffset(l, r, c))
  {
    ColumnAtInvolution(r, c, l.cols);
    var k: nat := ColumnAt(r, c, l.cols);
    GridPathOrder(l, centerLat, centerLon, cosLat, r, k);
  }

  /** Every cell of the grid is flown over: cell (`r`, `c`) is visited at step
      `ColumnAt(r, c, cols)` of row `r`. */
  lemma GridVisitsEveryCell(q: GridRequest, cosLat: real, r: nat, c: nat)
    requires GridDefined(q) && cosLat != 0.0
    requires r < Layout(q).rows && c < Layout(q).cols
    ensures exists i :: 0 <= i < |GenerateGridPath(q, cosLat)| &&
              GenerateGridPath(q, cosLat)[i] == Project(q.centerLat, q.centerLon, cosLat, CellOffset(Layout(q), r, c))
  {
    var l := Layout(q);
    GridPathVisitsEveryCell(l, q.centerLat, q.centerLon, cosLat, r, c);
    var i := BlockIndex(l.cols, r, ColumnAt(r, c, l.cols));
    assert GenerateGridPath(q, cosLat)[i] == Project(q.centerLat, q.centerLon, cosLat, CellOffset(l, r, c));
  }

  /** Layout-level form of `GridRowTurn`. */
  lemma GridPathRowTurn(l: GridLayout, centerLat: real, centerLon: real, cosLat: real, r: nat)
    requires cosLat != 0.0
    requires r + 1 < l.rows && l.cols >= 1
    ensures BlockIndex(l.cols, r, l.cols - 1) + 1 == BlockIndex(l.cols, r + 1, 0)
    ensures BlockIndex(l.cols, r + 1, 0) < |GridPath(l, centerLat, centerLon, cosLat)|
    ensures GridPath(l, centerLat, centerLon, cosLat)[BlockIndex(l.cols, r, l.cols - 1)].lon ==
            GridPath(l, centerLat, centerLon, cosLat)[BlockIndex(l.cols, r + 1, 0)].lon
  {
    NextBlockStart(l.cols, r);
    GridPathOrder(l, centerLat, centerLon, cosLat, r, l.cols - 1);
    GridPathOrder(l, centerLat, centerLon, cosLat, r + 1, 0);
    TurnColumn(r, l.cols);
    var c := ColumnAt(r, l.cols - 1, l.cols);
    ProjectLongitudeOfColumn(centerLat, centerLon, cosLat, CellOffset(l, r, c), CellOffset(l, r + 1, c));
  }

  /** The last step of a row and the first of the next visit the same column. */
  lemma TurnColumn(r: nat, cols: nat)
    requires cols >= 1
    ensures ColumnAt(r, cols - 1, cols) == ColumnAt(r + 1, 0, cols)
  {
    assert (r + 1) % 2 == 1 <==> r % 2 == 0;
  }

  /** The last waypoint of a row and the first of the next are consecutive in the path and
      lie on the same meridian: the turn needs no flyback. */
  lemma GridRowTurn(q: GridRequest, cosLat: real, r: nat)
    requires GridDefined(q) && cosLat != 0.0
    requires r + 1 < Layout(q).rows
    ensures BlockIndex(Layout(q).cols, r, Layout(q).cols - 1) + 1 == BlockIndex(Layout(q).cols, r + 1, 0)
    ensures BlockIndex(Layout(q).cols, r + 1, 0) < |GenerateGridPath(q, cosLat)|
    ensures GenerateGridPath(q, cosLat)[BlockIndex(Layout(q).cols, r, Layout(q).cols - 1)].lon ==
            GenerateGridPath(q, cosLat)[BlockIndex(Layout(q).cols, r + 1, 0)].lon
  {
    GridPathRowTurn(Layout(q), q.centerLat, q.centerLon, cosLat, r);
  }

  /** All waypoints of one row share a latitude. */
  lemma GridRowSharesLatitude(q: GridRequest, cosLat: real, r: nat, k1: nat, k2: nat)
    requires GridDefined(q) && cosLat != 0.0
    requires r < Layout(q).rows && k1 < Layout(q).cols && k2 < Layout(q).cols
    ensures BlockIndex(Layout(q).cols, r, k1) < |GenerateGridPath(q, cosLat)|
    ensures BlockIndex(Layout(q).cols, r, k2) < |GenerateGridPath(q, cosLat)|
    ensures GenerateGridPath(q, cosLat)[BlockIndex(Layout(q).cols, r, k1)].lat ==
            GenerateGridPath(q, cosLat)[BlockIndex(Layout(q).cols, r, k2)].lat
  {
    GridPathOrder(Layout(q), q.centerLat, q.centerLon, cosLat, r, k1);
    GridPathOrder(Layout(q), q.centerLat, q.centerLon, cosLat, r, k2);
  }

  /** Layout-level form of `GridLatitudeIncreasesByRow`. */
  lemma GridPathLatitudeIncreases(l: GridLayout, centerLat: real, centerLon: real, cosLat: real,
                                  r1: nat, k1: nat, r2: nat, k2: nat)
    requires cosLat != 0.0 && l.spacingY > 0.0
    requires r1 < r2 < l.rows && k1 < l.cols && k2 < l.cols
    ensures BlockIndex(l.cols, r1, k1) < |GridPath(l, centerLat, centerLon, cosLat)|
    ensures BlockIndex(l.cols, r2, k2) < |GridPath(l, centerLat, centerLon, cosLat)|
    ensures GridPath(l, centerLat, centerLon, cosLat)[BlockIndex(l.cols, r1, k1)].lat <
            GridPath(l, centerLat, centerLon, cosLat)[BlockIndex(l.cols, r2, k2)].lat
  {
    GridPathOrder(l, centerLat, centerLon, cosLat, r1, k1);
    GridPathOrder(l, centerLat, centerLon, cosLat, r2, k2);
    var a := CellOffset(l, r1, ColumnAt(r1, k1, l.cols));
    var b := CellOffset(l, r2, ColumnAt(r2, k2, l.cols));
    CellRowsAscend(l, r1, ColumnAt(r1, k1, l.cols), r2, ColumnAt(r2, k2, l.cols));
    ProjectLatitudeMonotone(centerLat, centerLon, cosLat, a, b);
  }

  /** With a positive footprint and overlap below 100, latitude strictly increases with the row. */
  lemma GridLatitudeIncreasesByRow(q: GridRequest, cosLat: real, r1: nat, k1: nat, r2: nat, k2: nat)
    requires GridDefined(q) && cosLat != 0.0
    requires q.fov > 0.0 && q.overlap < 100.0
    requires r1 < r2 < Layout(q).rows && k1 < Layout(q).cols && k2 < Layout(q).cols
    ensures BlockIndex(Layout(q).cols, r1, k1) < |GenerateGridPath(q, cosLat)|
    ensures BlockIndex(Layout(q).cols, r2, k2) < |GenerateGridPath(q, cosLat)|
    ensures GenerateGridPath(q, cosLat)[BlockIndex(Layout(q).cols, r1, k1)].lat <
            GenerateGridPath(q, cosLat)[BlockIndex(Layout(q).cols, r2, k2)].lat
  {
    SpacingAntitone(q.fov, q.overlap, q.overlap);
    GridPathLatitudeIncreases(Layout(q), q.centerLat, q.centerLon, cosLat, r1, k1, r2, k2);
  }

  /** Cells of a later row lie further north when rows are a positive distance apart. */
  lemma CellRowsAscend(l: GridLayout, r1: int, c1: int, r2: int, c2: int)
    requires l.spacingY > 0.0 && r1 < r2
    ensures CellOffset(l, r1, c1).dy < CellOffset(l, r2, c2).dy
  {
    assert r2 as real * l.spacingY - r1 as real * l.spacingY == (r2 - r1) as real * l.spacingY;
    assert (r2 - r1) as real * l.spacingY > 0.0;
  }

  /** Mirrored columns have opposite `dx`; mirrored rows have opposite `dy`. */
  lemma CellMirror(l: GridLayout, r: int, c: int)
    ensures CellOffset(l, r, c).dx + CellOffset(l, r, l.cols - 1 - c).dx == 0.0
    ensures CellOffset(l, r, c).dy + CellOffset(l, l.rows - 1 - r, c).dy == 0.0
  {
    assert c as real * l.spacingX + (l.cols - 1 - c) as real * l.spacingX == (l.cols - 1) as real * l.spacingX;
    assert r as real * l.spacingY + (l.rows - 1 - r) as real * l.spacingY == (l.rows - 1) as real * l.spacingY;
  }

  /** The grid is centred: mirrored columns (and mirrored rows) project symmetrically about
      the centre longitude (latitude). */
  lemma GridCentred(q: GridRequest, cosLat: real, r: nat, c: nat)
    requires GridDefined(q) && cosLat != 0.0
    requires r < Layout(q).rows && c < Layout(q).cols
    ensures CellOffset(Layout(q), r, c).dx + CellOffset(Layout(q), r, Layout(q).cols - 1 - c).dx == 0.0
    ensures CellOffset(Layout(q), r, c).dy + CellOffset(Layout(q), Layout(q).rows - 1 - r, c).dy == 0.0
    ensures Project(q.centerLat, q.centerLon, cosLat, CellOffset(Layout(q), r, c)).lon +
            Project(q.centerLat, q.centerLon, cosLat, CellOffset(Layout(q), r, Layout(q).cols - 1 - c)).lon == 2.0 * q.centerLon
    ensures Project(q.centerLat, q.centerLon, cosLat, CellOffset(Layout(q), r, c)).lat +
            Project(q.centerLat, q.centerLon, cosLat, CellOffset(Layout(q), Layout(q).rows - 1 - r, c)).lat == 2.0 * q.centerLat
  {
    var l := Layout(q);
    var a, b, d := CellOffset(l, r, c), CellOffset(l, r, l.cols - 1 - c), CellOffset(l, l.rows - 1 - r, c);
    CellMirror(l, r, c);
    ProjectSymmetricLongitude(q.centerLat, q.centerLon, cosLat, a, b);
    ProjectSymmetricLatitude(q.centerLat, q.centerLon, cosLat, a, d);
  }

  /** Direction, rotation, speed, interval and altitude do not influence the grid. */
  lemma GridIgnoresUnusedInputs(q: GridRequest, cosLat: real, direction: string, rotationDeg: real,
                                altitude: real, speed: real, interval: real)
    requires GridDefined(q) && cosLat != 0.0
    ensures GenerateGridPath(q.(direction := direction, rotationDeg := rotationDeg, altitude := altitude,
                                speed := speed, interval := interval), cosLat)
            == GenerateGridPath(q, cosLat)
  {
    var q' := q.(direction := direction, rotationDeg := rotationDeg, altitude := altitude,
                 speed := speed, interval := interval);
    assert SpacingX(q') == SpacingX(q) && SpacingY(q') == SpacingY(q);
    assert Layout(q') == Layout(q);
  }

  /** A spacing shrinks as its overlap grows. */
  lemma SpacingAntitone(fov: real, o1: real, o2: real)
    requires fov > 0.0 && o1 <= o2 < 100.0
    ensures 0.0 < Spacing(fov, o2) <= Spacing(fov, o1)
  {
    MulPositive(fov, 1.0 - o2 / 100.0);
    assert Spacing(fov, o1) - Spacing(fov, o2) == fov * ((o2 - o1) / 100.0);
    MulNonNegative(fov, (o2 - o1) / 100.0);
  }

  /** Raising overlap or sidelap (below 100) never lowers the number of waypoints. */
  lemma GridCountMonotone(q: GridRequest, cosLat: real, overlap: real, sidelap: real)
    requires GridDefined(q) && cosLat != 0.0
    requires q.fov > 0.0
    requires q.overlap <= overlap < 100.0 && q.sidelap <= sidelap < 100.0
    ensures GridDefined(q.(overlap := overlap, sidelap := sidelap))
    ensures Layout(q).rows <= Layout(q.(overlap := overlap, sidelap := sidelap)).rows
    ensures Layout(q).cols <= Layout(q.(overlap := overlap, sidelap := sidelap)).cols
    ensures |GenerateGridPath(q, cosLat)| <= |GenerateGridPath(q.(overlap := overlap, sidelap := sidelap), cosLat)|
  {
    var q' := q.(overlap := overlap, sidelap := sidelap);
    SpacingAntitone(q.fov, q.overlap, overlap);
    SpacingAntitone(q.fov, q.sidelap, sidelap);
    assert SpacingY(q') == Spacing(q.fov, overlap);
    assert SpacingX(q') == Spacing(q.fov, sidelap);
    GridCountAntitone(q.areaHeight, SpacingY(q), SpacingY(q'));
    GridCountAntitone(q.areaWidth, SpacingX(q), SpacingX(q'));
    var l, l' := Layout(q), Layout(q');
    MulMonotone(l.rows, l'.rows, l.cols, l'.cols);
  }

  // ---------------------------------------------------------------------------
  // Orbit rings
  // ---------------------------------------------------------------------------

  /** The positional arguments of `generate_oblique_path`; `altitude` and `tilt` are unused. */
  datatype ObliqueRequest = ObliqueRequest(
    centerLat: real, centerLon: real, areaWidth: real, areaHeight: real,
    altitude: real, tilt: real, layers: int)

  /** Radii below this are replaced by `FallbackRadius`. */
  const MinRadius: real := 5.0
  const FallbackRadius: real := 100.0
  /** `range(0, 360, 15)`: 24 angles, 15 degrees apart. */
  const AngleStep: nat := 15
  const RingSize: nat := 24

  /** Half the larger side, or 100 m when that is under 5 m. */
  function BaseRadius(width: real, height: real): (radius: real)
    ensures radius >= MinRadius
    ensures MaxReal(width, height) / 2.0 >= MinRadius ==> radius == MaxReal(width, height) / 2.0
    ensures MaxReal(width, height) / 2.0 < MinRadius ==> radius == FallbackRadius
  {
    var r := MaxReal(width, height) / 2.0;
    if r < MinRadius then FallbackRadius else r
  }

  /** Radius of layer `k`: a linear shrink of 10% of the base radius per layer. */
  function LayerRadius(radius: real, k: nat): real
  {
    radius * (1.0 - 0.1 * k as real)
  }

  /** Layer 0 has the base radius and each further layer is 10% of the base radius smaller:
      the shrink is linear, so layer 10 collapses to the centre and later layers pass through it. */
  lemma LayerShrinkLinear(radius: real, k: nat)
    ensures LayerRadius(radius, 0) == radius
    ensures LayerRadius(radius, k + 1) == LayerRadius(radius, k) - radius / 10.0
    ensures LayerRadius(radius, 10) == 0.0
  {
  }

  /** Point `j` of layer `k`; `cosDeg`/`sinDeg` give the cosine and sine of an angle in degrees. */
  function RingOffset(radius: real, k: nat, j: nat, cosDeg: int -> real, sinDeg: int -> real): Offset
  {
    var rk := LayerRadius(radius, k);
    Offset(rk * cosDeg(AngleStep * j), rk * sinDeg(AngleStep * j))
  }

  /** Layer `k` as local offsets, angle 0 first. */
  function Ring(radius: real, k: nat, cosDeg: int -> real, sinDeg: int -> real): (ring: seq<Offset>)
    ensures |ring| == RingSize
    ensures forall j :: 0 <= j < RingSize ==> ring[j] == RingOffset(radius, k, j, cosDeg, sinDeg)
  {
    seq(RingSize, j requires 0 <= j < RingSize => RingOffset(radius, k, j, cosDeg, sinDeg))
  }

  /** `range(layers)` is empty for a non-positive count. */
  function LayerCount(layers: int): nat
  {
    if layers > 0 then layers else 0
  }

  /** Layer `k` as the block the outer loop appends. */
  function LayerRings(radius: real, cosDeg: int -> real, sinDeg: int -> real): nat -> seq<Offset>
  {
    (k: nat) => Ring(radius, k, cosDeg, sinDeg)
  }

  function ObliqueOffsets(q: ObliqueRequest, cosDeg: int -> real, sinDeg: int -> real): seq<Offset>
  {
    var radius := BaseRadius(q.areaWidth, q.areaHeight);
    Blocks(LayerCount(q.layers), LayerRings(radius, cosDeg, sinDeg))
  }

  /** `generate_oblique_path`: 24 points per layer, layer by layer. */
  function GenerateObliquePath(q: ObliqueRequest, cosLat: real, cosDeg: int -> real, sinDeg: int -> real): (path: seq<Waypoint>)
    requires cosLat != 0.0
    ensures |path| == RingSize * LayerCount(q.layers)
    ensures path == [] <==> q.layers <= 0
  {
    var radius := BaseRadius(q.areaWidth, q.areaHeight);
    BlocksLength(LayerCount(q.layers), RingSize, LayerRings(radius, cosDeg, sinDeg));
    ProjectAll(q.centerLat, q.centerLon, cosLat, ObliqueOffsets(q, cosDeg, sinDeg))
  }

  /** Point `j` of layer `k` sits at index `24 * k + j` and is taken at angle `15 * j`
      on the layer's circle. */
  lemma ObliqueOrder(q: ObliqueRequest, cosLat: real, cosDeg: int -> real, sinDeg: int -> real, k: nat, j: nat)
    requires cosLat != 0.0
    requires k < LayerCount(q.layers) && j < RingSize
    ensures BlockIndex(RingSize, k, j) < |GenerateObliquePath(q, cosLat, cosDeg, sinDeg)|
    ensures GenerateObliquePath(q, cosLat, cosDeg, sinDeg)[BlockIndex(RingSize, k, j)] ==
              Project(q.centerLat, q.centerLon, cosLat, RingOffset(BaseRadius(q.areaWidth, q.areaHeight), k, j, cosDeg, sinDeg))
  {
    var radius := BaseRadius(q.areaWidth, q.areaHeight);
    BlocksIndex(LayerCount(q.layers), RingSize, LayerRings(radius, cosDeg, sinDeg));
  }

  /** Every point of the path is some point `i % 24` of layer `i / 24`. */
  lemma ObliqueCovers(q: ObliqueRequest, cosLat: real, cosDeg: int -> real, sinDeg: int -> real, i: nat)
    requires cosLat != 0.0
    requires i < |GenerateObliquePath(q, cosLat, cosDeg, sinDeg)|
    ensures i / RingSize < LayerCount(q.layers)
    ensures GenerateObliquePath(q, cosLat, cosDeg, sinDeg)[i] ==
              Project(q.centerLat, q.centerLon, cosLat,
                      RingOffset(BaseRadius(q.areaWidth, q.areaHeight), i / RingSize, i % RingSize, cosDeg, sinDeg))
  {
    var radius := BaseRadius(q.areaWidth, q.areaHeight);
    BlocksLength(LayerCount(q.layers), RingSize, LayerRings(radius, cosDeg, sinDeg));
    BlocksElement(LayerCount(q.layers), RingSize, LayerRings(radius, cosDeg, sinDeg), i);
  }

  /** Altitude and camera tilt do not influence the orbit. */
  lemma ObliqueIgnoresUnusedInputs(q: ObliqueRequest, cosLat: real, cosDeg: int -> real, sinDeg: int -> real,
                                   altitude: real, tilt: real)
    requires cosLat != 0.0
    ensures GenerateObliquePath(q.(altitude := altitude, tilt := tilt), cosLat, cosDeg, sinDeg)
            == GenerateObliquePath(q, cosLat, cosDeg, sinDeg)
  {
    var q' := q.(altitude := altitude, tilt := tilt);
    assert ObliqueOffsets(q', cosDeg, sinDeg) == ObliqueOffsets(q, cosDeg, sinDeg);
  }

  /** Cosine and sine of every angle lie on the unit circle. */
  ghost predicate UnitCircle(cosDeg: int -> real, sinDeg: int -> real)
  {
    forall a :: cosDeg(a) * cosDeg(a) + sinDeg(a) * sinDeg(a) == 1.0
  }

  /** Each offset of layer `k` lies at distance `LayerRadius(k)` from the centre. */
  lemma RingOffsetOnCircle(radius: real, k: nat, j: nat, cosDeg: int -> real, sinDeg: int -> real)
    requires UnitCircle(cosDeg, sinDeg)
    ensures var o := RingOffset(radius, k, j, cosDeg, sinDeg);
            o.dx * o.dx + o.dy * o.dy == LayerRadius(radius, k) * LayerRadius(radius, k)
  {
    var rk, c, s := LayerRadius(radius, k), cosDeg(AngleStep * j), sinDeg(AngleStep * j);
    assert c * c + s * s == 1.0;
    assert (rk * c) * (rk * c) + (rk * s) * (rk * s) == rk * rk * (c * c + s * s);
  }

  // ---------------------------------------------------------------------------
  // Flight metrics
  // ---------------------------------------------------------------------------

  /** Sum of leg lengths over consecutive pairs, in path order. `leg` stands for the
      haversine distance in kilometres. */
  function PathDistance(path: seq<Waypoint>, leg: (Waypoint, Waypoint) -> real): real
    decreases |path|
  {
    if |path| <= 1 then 0.0
    else PathDistance(path[..|path| - 1], leg) + leg(path[|path| - 2], path[|path| - 1])
  }

  ghost predicate NonNegativeLegs(leg: (Waypoint, Waypoint) -> real)
  {
    forall p, q :: leg(p, q) >= 0.0
  }

  /** Distances are never negative. */
  lemma {:induction false} PathDistanceNonNegative(path: seq<Waypoint>, leg: (Waypoint, Waypoint) -> real)
    requires NonNegativeLegs(leg)
    ensures PathDistance(path, leg) >= 0.0
    decreases |path|
  {
    if |path| > 1 {
      PathDistanceNonNegative(path[..|path| - 1], leg);
    }
  }

  /** Distance is additive over concatenation plus the joining leg, so the nadir-then-
      oblique path costs both parts and one transit. */
  lemma {:induction false} PathDistanceConcat(a: seq<Waypoint>, b: seq<Waypoint>, leg: (Waypoint, Waypoint) -> real)
    requires |a| >= 1 && |b| >= 1
    ensures PathDistance(a + b, leg) == PathDistance(a, leg) + leg(a[|a| - 1], b[0]) + PathDistance(b, leg)
    decreases |b|
  {
    var ab := a + b;
    if |b| == 1 {
      assert ab[..|ab| - 1] == a;
    } else {
      var b' := b[..|b| - 1];
      assert ab[..|ab| - 1] == a + b';
      PathDistanceConcat(a, b', leg);
      assert b'[0] == b[0];
    }
  }

  /** The three numbers `estimate_flight_metrics` returns. */
  datatype FlightMetrics = FlightMetrics(distKm: real, minutes: real, batteries: int)

  function BatteryMinutesOf(e: Envelope): real
  {
    e.batteryMinutes.GetOr(DefaultBatteryMinutes)
  }

  /** `max(1, ceil(minutes / batteryTime))`: for positive endurance, the fewest packs
      (at least one) whose combined endurance covers the flight. */
  function BatteryCount(minutes: real, batteryTime: real): (b: int)
    requires batteryTime != 0.0
    ensures b >= 1
    ensures batteryTime > 0.0 ==> minutes <= b as real * batteryTime
    ensures batteryTime > 0.0 ==> b == 1 || (b - 1) as real * batteryTime < minutes
  {
    var c := Ceil(minutes / batteryTime);
    if batteryTime > 0.0 then CeilScaled(minutes, batteryTime); MaxInt(1, c) else MaxInt(1, c)
  }

  /** `ceil(m / t)` endurances of `t` cover `m`, one fewer does not. */
  lemma CeilScaled(m: real, t: real)
    requires t > 0.0
    ensures m <= Ceil(m / t) as real * t
    ensures (Ceil(m / t) - 1) as real * t < m
  {
    var x := m / t;
    assert x * t == m;
    CeilAbove(x, t);
    CeilBelow(x, t);
    var d := (Ceil(x) - 1) as real;
    assert d * t < m;
  }

  lemma CeilAbove(x: real, t: real)
    requires t > 0.0
    ensures x * t <= Ceil(x) as real * t
  {
    MulNonNegative(Ceil(x) as real - x, t);
    assert (Ceil(x) as real - x) * t == Ceil(x) as real * t - x * t;
  }

  lemma CeilBelow(x: real, t: real)
    requires t > 0.0
    ensures (Ceil(x) - 1) as real * t < x * t
  {
    var d := (Ceil(x) - 1) as real;
    assert d < x;
    MulPositive(x - d, t);
    assert (x - d) * t == x * t - d * t;
  }

  /** `estimate_flight_metrics`. `speed` and the battery endurance must be non-zero,
      otherwise the code divides by zero. */
  function EstimateFlightMetrics(path: seq<Waypoint>, speed: real, e: Envelope, leg: (Waypoint, Waypoint) -> real): (m: FlightMetrics)
    requires speed != 0.0 && BatteryMinutesOf(e) != 0.0
    ensures m.distKm == PathDistance(path, leg)
    ensures m.minutes * 60.0 * speed == m.distKm * 1000.0
    ensures m.batteries == BatteryCount(m.minutes, BatteryMinutesOf(e))
    ensures |path| <= 1 ==> m.distKm == 0.0 && m.minutes == 0.0 && m.batteries == 1
  {
    var dist := PathDistance(path, leg);
    var minutes := dist * 1000.0 / speed / 60.0;
    FlightMetrics(dist, minutes, BatteryCount(minutes, BatteryMinutesOf(e)))
  }

  /** Exactly one endurance of flight needs one pack; a hundredth of a minute more needs two. */
  lemma BatteryRounding()
    ensures BatteryCount(20.0, DefaultBatteryMinutes) == 1
    ensures BatteryCount(20.01, DefaultBatteryMinutes) == 2
  {
  }

  /** No table model defines an endurance, so metrics for any of them use the 20-minute default. */
  lemma TableUsesDefaultBattery(model: string)
    requires model in Table
    ensures BatteryMinutesOf(Table[model]) == DefaultBatteryMinutes
  {
    NoModelDefinesBattery(model);
  }
}

=== FILE: geo.dfy ===
/** The planar-offset-to-geographic projection both path generators apply inline
    (flight_calculator.py lines 26-27 and 47-48): one degree of latitude is taken as
    111 000 m, one degree of longitude as 111 000 m times the cosine of the centre latitude.
    The cosine is not computed here; callers supply it as `cosLat`. */
module Geo {

  /** Metres per degree of latitude, as the code has it. */
  const MetresPerDegree: real := 111000.0

  /** A geographic point, in the order the code stores it: `(lon, lat)`. */
  datatype Waypoint = Waypoint(lon: real, lat: real)

  /** A local planar offset in metres from the centre: `dx` east, `dy` north. */
  datatype Offset = Offset(dx: real, dy: real)

  /** The local offset of a geographic point; undoes `Project` for the same centre. */
  function Unproject(centerLat: real, centerLon: real, cosLat: real, w: Waypoint): Offset
  {
    Offset((w.lon - centerLon) * (MetresPerDegree * cosLat), (w.lat - centerLat) * MetresPerDegree)
  }

  /** The geographic point at local offset `o` from `(centerLat, centerLon)`. */
  function Project(centerLat: real, centerLon: real, cosLat: real, o: Offset): (w: Waypoint)
    requires cosLat != 0.0
    ensures Unproject(centerLat, centerLon, cosLat, w) == o
  {
    var w := Waypoint(centerLon + o.dx / (MetresPerDegree * cosLat), centerLat + o.dy / MetresPerDegree);
    assert (w.lon - centerLon) * (MetresPerDegree * cosLat) == o.dx;
    w
  }

  /** Projection is onto: every waypoint is the projection of its own offset. */
  lemma ProjectUnproject(centerLat: real, centerLon: real, cosLat: real, w: Waypoint)
    requires cosLat != 0.0
    ensures Project(centerLat, centerLon, cosLat, Unproject(centerLat, centerLon, cosLat, w)) == w
  {
  }

  /** Projection is injective, so distinct offsets give distinct waypoints. */
  lemma ProjectInjective(centerLat: real, centerLon: real, cosLat: real, a: Offset, b: Offset)
    requires cosLat != 0.0
    requires Project(centerLat, centerLon, cosLat, a) == Project(centerLat, centerLon, cosLat, b)
    ensures a == b
  {
    assert Unproject(centerLat, centerLon, cosLat, Project(centerLat, centerLon, cosLat, a)) == a;
  }

  /** Latitude depends on `dy` only and is strictly increasing in it. */
  lemma ProjectLatitudeMonotone(centerLat: real, centerLon: real, cosLat: real, a: Offset, b: Offset)
    requires cosLat != 0.0
    requires a.dy < b.dy
    ensures Project(centerLat, centerLon, cosLat, a).lat < Project(centerLat, centerLon, cosLat, b).lat
  {
  }

  /** Longitude depends on `dx` only. */
  lemma ProjectLongitudeOfColumn(centerLat: real, centerLon: real, cosLat: real, a: Offset, b: Offset)
    requires cosLat != 0.0
    requires a.dx == b.dx
    ensures Project(centerLat, centerLon, cosLat, a).lon == Project(centerLat, centerLon, cosLat, b).lon
  {
  }

  /** Offsets with opposite `dx` land symmetrically about the centre longitude. */
  lemma ProjectSymmetricLongitude(centerLat: real, centerLon: real, cosLat: real, a: Offset, b: Offset)
    requires cosLat != 0.0
    requires a.dx + b.dx == 0.0
    ensures Project(centerLat, centerLon, cosLat, a).lon + Project(centerLat, centerLon, cosLat, b).lon == 2.0 * centerLon
  {
    var k := MetresPerDegree * cosLat;
    assert a.dx / k + b.dx / k == (a.dx + b.dx) / k;
  }

  /** Offsets with opposite `dy` land symmetrically about the centre latitude. */
  lemma ProjectSymmetricLatitude(centerLat: real, centerLon: real, cosLat: real, a: Offset, b: Offset)
    requires cosLat != 0.0
    requires a.dy + b.dy == 0.0
    ensures Project(centerLat, centerLon, cosLat, a).lat + Project(centerLat, centerLon, cosLat, b).lat == 2.0 * centerLat
  {
    assert a.dy / MetresPerDegree + b.dy / MetresPerDegree == (a.dy + b.dy) / MetresPerDegree;
  }

  /** The projection of every offset of a sequence, in order. */
  function ProjectAll(centerLat: real, centerLon: real, cosLat: real, offs: seq<Offset>): (ws: seq<Waypoint>)
    requires cosLat != 0.0
    ensures |ws| == |offs|
    ensures forall i :: 0 <= i < |offs| ==> ws[i] == Project(centerLat, centerLon, cosLat, offs[i])
  {
    seq(|offs|, i requires 0 <= i < |offs| => Project(centerLat, centerLon, cosLat, offs[i]))
  }
}

=== FILE: map_utils.dfy ===
/** `calculate_area_bounds` (map_utils.py): the bounding box, centre and size of the
    area a user draws, as a polygon or as a circle. */
module MapUtils {
  import opened Options
  import opened Geo

  /** GeoJSON coordinates: a polygon's rings of `[lon, lat]` positions, or one position. */
  datatype Coordinates = Rings(rings: seq<seq<Waypoint>>) | Position(pos: Waypoint)

  /** A drawn geometry: its GeoJSON `type`, its coordinates, and the `radius` key that the
      drawing control adds to circles. */
  datatype Geometry = Geometry(kind: string, coordinates: Coordinates, radius: Option<real>)

  /** The dictionary `calculate_area_bounds` returns. */
  datatype AreaBounds = AreaBounds(
    minLat: real, maxLat: real, minLon: real, maxLon: real,
    centerLat: real, centerLon: real, width: real, height: real)

  /** Python's `min` over a non-empty list. */
  function Min(xs: seq<real>): (m: real)
    requires |xs| > 0
    ensures exists i :: 0 <= i < |xs| && xs[i] == m
    ensures forall i :: 0 <= i < |xs| ==> m <= xs[i]
  {
    if |xs| == 1 then xs[0]
    else
      var rest := Min(xs[1..]);
      assert forall i :: 1 <= i < |xs| ==> xs[i] == xs[1..][i - 1];
      if xs[0] <= rest then xs[0] else rest
  }

  /** Python's `max` over a non-empty list. */
  function Max(xs: seq<real>): (m: real)
    requires |xs| > 0
    ensures exists i :: 0 <= i < |xs| && xs[i] == m
    ensures forall i :: 0 <= i < |xs| ==> xs[i] <= m
  {
    if |xs| == 1 then xs[0]
    else
      var rest := Max(xs[1..]);
      assert forall i :: 1 <= i < |xs| ==> xs[i] == xs[1..][i - 1];
      if xs[0] >= rest then xs[0] else rest
  }

  function Lats(ring: seq<Waypoint>): (lats: seq<real>)
    ensures |lats| == |ring|
    ensures forall i :: 0 <= i < |ring| ==> lats[i] == ring[i].lat
  {
    seq(|ring|, i requires 0 <= i < |ring| => ring[i].lat)
  }

  function Lons(ring: seq<Waypoint>): (lons: seq<real>)
    ensures |lons| == |ring|
    ensures forall i :: 0 <= i < |ring| ==> lons[i] == ring[i].lon
  {
    seq(|ring|, i requires 0 <= i < |ring| => ring[i].lon)
  }

  /** A polygon whose first ring has a vertex: the only polygons the code can measure.
      Any other polygon makes indexing or `min()` raise, and the code returns `None`. */
  predicate MeasurablePolygon(g: Geometry)
  {
    g.kind == "Polygon" && g.coordinates.Rings? && |g.coordinates.rings| > 0 && |g.coordinates.rings[0]| > 0
  }

  /** A `Point` carrying a `radius`: a drawn circle. */
  predicate MeasurableCircle(g: Geometry)
  {
    g.kind == "Point" && g.radius.Some? && g.coordinates.Position?
  }

  /** The circle branch divides by `111000 * cos(lat)`. */
  predicate CircleCosineDefined(g: Geometry, cosDeg: real -> real)
  {
    MeasurableCircle(g) ==> cosDeg(g.coordinates.pos.lat) != 0.0
  }

  /** Bounds of a non-empty ring: min/max of its latitudes and longitudes, the midpoint of
      those as centre, and the two haversine legs from the south-west corner as size. */
  function PolygonBounds(ring: seq<Waypoint>, haversine: (real, real, real, real) -> real): (b: AreaBounds)
    requires |ring| > 0
    ensures forall i :: 0 <= i < |ring| ==>
              b.minLat <= ring[i].lat <= b.maxLat && b.minLon <= ring[i].lon <= b.maxLon
    ensures exists i :: 0 <= i < |ring| && ring[i].lat == b.minLat
    ensures exists i :: 0 <= i < |ring| && ring[i].lat == b.maxLat
    ensures exists i :: 0 <= i < |ring| && ring[i].lon == b.minLon
    ensures exists i :: 0 <= i < |ring| && ring[i].lon == b.maxLon
    ensures b.minLat <= b.centerLat <= b.maxLat && b.minLon <= b.centerLon <= b.maxLon
    ensures b.centerLat - b.minLat == b.maxLat - b.centerLat
    ensures b.centerLon - b.minLon == b.maxLon - b.centerLon
    ensures b.width == haversine(b.minLat, b.minLon, b.minLat, b.maxLon)
    ensures b.height == haversine(b.minLat, b.minLon, b.maxLat, b.minLon)
  {
    var lats, lons := Lats(ring), Lons(ring);
    var minLat, maxLat := Min(lats), Max(lats);
    var minLon, maxLon := Min(lons), Max(lons);
    AreaBounds(minLat, maxLat, minLon, maxLon,
               (minLat + maxLat) / 2.0, (minLon + maxLon) / 2.0,
               haversine(minLat, minLon, minLat, maxLon),
               haversine(minLat, minLon, maxLat, minLon))
  }

  /** Bounds of a circle of `radius` metres around `p`. */
  function CircleBounds(p: Waypoint, radius: real, cosLat: real): (b: AreaBounds)
    requires cosLat != 0.0
    ensures b.centerLat == p.lat && b.centerLon == p.lon
    ensures b.width == 2.0 * radius && b.height == b.width
    ensures b.maxLat - p.lat == p.lat - b.minLat == radius / MetresPerDegree
    ensures b.maxLon - p.lon == p.lon - b.minLon == radius / (MetresPerDegree * cosLat)
  {
    var radiusLat := radius / MetresPerDegree;
    var radiusLon := radius / (MetresPerDegree * cosLat);
    AreaBounds(p.lat - radiusLat, p.lat + radiusLat, p.lon - radiusLon, p.lon + radiusLon,
               p.lat, p.lon, radius * 2.0, radius * 2.0)
  }

  /** `calculate_area_bounds`. `haversine(lat1, lon1, lat2, lon2)` is the great-circle
      distance in metres and `cosDeg` the cosine of an angle in degrees. */
  function CalculateAreaBounds(g: Geometry, haversine: (real, real, real, real) -> real, cosDeg: real -> real): (r: Option<AreaBounds>)
    requires CircleCosineDefined(g, cosDeg)
    ensures r.Some? <==> MeasurablePolygon(g) || MeasurableCircle(g)
    ensures MeasurablePolygon(g) ==> r == Some(PolygonBounds(g.coordinates.rings[0], haversine))
    ensures MeasurableCircle(g) ==>
              r == Some(CircleBounds(g.coordinates.pos, g.radius.value, cosDeg(g.coordinates.pos.lat)))
  {
    if g.kind == "Polygon" then
      if MeasurablePolygon(g) then Some(PolygonBounds(g.coordinates.rings[0], haversine)) else None
    else if MeasurableCircle(g) then
      Some(CircleBounds(g.coordinates.pos, g.radius.value, cosDeg(g.coordinates.pos.lat)))
    else None
  }

  /** With a non-negative distance, the measured size is non-negative. */
  lemma PolygonSizeNonNegative(ring: seq<Waypoint>, haversine: (real, real, real, real) -> real)
    requires |ring| > 0
    requires forall a, b, c, d :: haversine(a, b, c, d) >= 0.0
    ensures PolygonBounds(ring, haversine).width >= 0.0 && PolygonBounds(ring, haversine).height >= 0.0
  {
  }

  /** The circle's box is the box of the four compass points `radius` metres from the
      centre, as the planner's projection places them; its north-east and south-west
      corners are the projections of (r, r) and (-r, -r). */
  lemma CircleBoundsAreProjections(p: Waypoint, radius: real, cosLat: real)
    requires cosLat != 0.0
    ensures Project(p.lat, p.lon, cosLat, Offset(0.0, radius)).lat == CircleBounds(p, radius, cosLat).maxLat
    ensures Project(p.lat, p.lon, cosLat, Offset(0.0, -radius)).lat == CircleBounds(p, radius, cosLat).minLat
    ensures Project(p.lat, p.lon, cosLat, Offset(radius, 0.0)).lon == CircleBounds(p, radius, cosLat).maxLon
    ensures Project(p.lat, p.lon, cosLat, Offset(-radius, 0.0)).lon == CircleBounds(p, radius, cosLat).minLon
    ensures var b := CircleBounds(p, radius, cosLat);
      Project(p.lat, p.lon, cosLat, Offset(radius, radius)) == Waypoint(b.maxLon, b.maxLat)
    ensures var b := CircleBounds(p, radius, cosLat);
      Project(p.lat, p.lon, cosLat, Offset(-radius, -radius)) == Waypoint(b.minLon, b.minLat)
  {
    assert -radius / (MetresPerDegree * cosLat) == -(radius / (MetresPerDegree * cosLat));
  }
}

=== FILE: numeric.dfy ===
/** Integer conversions of Python floats, written out over the reals. */
module Numeric {

  /** Python's `max` on two ints. */
  function MaxInt(a: int, b: int): (r: int)
    ensures r >= a && r >= b
    ensures r == a || r == b
  {
    if a >= b then a else b
  }

  /** Python's `max` on two floats. */
  function MaxReal(a: real, b: real): (r: real)
    ensures r >= a && r >= b
    ensures r == a || r == b
  {
    if a >= b then a else b
  }

  /** Python's `int(x)` on a float: truncation toward zero (not the floor). */
  function Trunc(x: real): (n: int)
    ensures x >= 0.0 ==> 0 <= n && n as real <= x < n as real + 1.0
    ensures x < 0.0 ==> n <= 0 && n as real - 1.0 < x <= n as real
  {
    if x >= 0.0 then x.Floor else -((-x).Floor)
  }

  /** Python's `math.ceil(x)`: the least integer not below `x`. */
  function Ceil(x: real): (n: int)
    ensures n as real - 1.0 < x <= n as real
  {
    -((-x).Floor)
  }

  /** `int()` is monotone. */
  lemma TruncMonotone(x: real, y: real)
    requires x <= y
    ensures Trunc(x) <= Trunc(y)
  {
  }

  /** Dividing a non-negative quantity by a smaller positive divisor gives a larger quotient. */
  lemma DivAntitone(h: real, s1: real, s2: real)
    requires h >= 0.0
    requires 0.0 < s2 <= s1
    ensures h / s1 <= h / s2
  {
    var a, b := h / s1, h / s2;
    assert a * s1 == h && b * s2 == h;
    assert b * s1 >= b * s2 by {
      assert b >= 0.0;
      assert b * (s1 - s2) >= 0.0;
    }
  }

  lemma MulNonZero(x: real, y: real)
    requires x != 0.0 && y != 0.0
    ensures x * y != 0.0
  {
  }

  lemma MulPositive(x: real, y: real)
    requires x > 0.0 && y > 0.0
    ensures x * y > 0.0
  {
  }

  lemma MulNonNegative(x: real, y: real)
    requires x >= 0.0 && y >= 0.0
    ensures x * y >= 0.0
  {
  }

  /** Products of naturals grow with both factors. */
  lemma MulMonotone(a: nat, b: nat, c: nat, d: nat)
    requires a <= b && c <= d
    ensures a * c <= b * d
  {
    MulLeft(a, b, c);
    MulLeft(c, d, b);
    assert c * b == b * c && d * b == b * d;
  }

  lemma DivMod(i: nat, width: nat)
    requires width > 0
    ensures i == (i / width) * width + i % width
  {
  }

  lemma MulCancel(a: int, b: int, c: int)
    requires c > 0 && a * c < b * c
    ensures a < b
  {
    assert (b - a) * c > 0;
  }

  lemma MulLeft(a: int, b: int, c: int)
    requires a <= b && c >= 0
    ensures a * c <= b * c
  {
    assert (b - a) * c >= 0;
  }

}

=== FILE: options.dfy ===
/** The optional value used for dictionary lookups with a default (`d.get(k, default)`)
    and for functions of the planner that return `None` on failure. */
module Options {

  datatype Option<+T> = None | Some(value: T) {

    /** The wrapped value, or `default` when there is none: `dict.get(key, default)`. */
    function GetOr(default: T): (r: T)
      ensures Some? ==> r == value
      ensures None? ==> r == default
    {
      match this
      case Some(v) => v
      case None => default
    }
  }
}

=== FILE: sequences.dfy ===
/** Paths are built block by block: a block (a grid row, an orbit ring) is computed and
    appended with `path.extend(...)` / repeated `path.append(...)`. `Blocks` is that loop,
    and `BlocksIndex` says where each element of each block ends up. */
module Sequences {
  import opened Numeric

  /** The reversal `list.reverse()` performs. */
  function Reverse<T>(s: seq<T>): (r: seq<T>)
    ensures |r| == |s|
    ensures forall i :: 0 <= i < |s| ==> r[i] == s[|s| - 1 - i]
  {
    seq(|s|, i requires 0 <= i < |s| => s[|s| - 1 - i])
  }

  /** Blocks `block(0)`, ..., `block(n - 1)` appended in that order. */
  function Blocks<T>(n: nat, block: nat -> seq<T>): seq<T>
    decreases n
  {
    if n == 0 then [] else Blocks(n - 1, block) + block(n - 1)
  }

  /** Position of element `j` of block `b` when every block has `width` elements. */
  function BlockIndex(width: nat, b: nat, j: nat): nat
  {
    b * width + j
  }

  /** With `n` blocks of `width` elements each, the result has `n * width` elements. */
  lemma {:induction false} BlocksLength<T>(n: nat, width: nat, block: nat -> seq<T>)
    requires forall b :: |block(b)| == width
    ensures |Blocks(n, block)| == n * width
  {
    if n > 0 {
      BlocksLength(n - 1, width, block);
      assert |Blocks(n, block)| == (n - 1) * width + width;
    }
  }

  /** Element `j` of block `b` sits at `b * width + j`. */
  lemma {:induction false} BlocksIndex<T>(n: nat, width: nat, block: nat -> seq<T>)
    requires forall b :: |block(b)| == width
    ensures |Blocks(n, block)| == n * width
    ensures forall b, j :: 0 <= b < n && 0 <= j < width ==>
              BlockIndex(width, b, j) < |Blocks(n, block)| && Blocks(n, block)[BlockIndex(width, b, j)] == block(b)[j]
  {
    BlocksLength(n, width, block);
    if n > 0 {
      BlocksIndex(n - 1, width, block);
      var prev := Blocks(n - 1, block);
      var s := Blocks(n, block);
      assert s == prev + block(n - 1);
      forall b, j | 0 <= b < n && 0 <= j < width
        ensures BlockIndex(width, b, j) < |s| && s[BlockIndex(width, b, j)] == block(b)[j]
      {
        if b < n - 1 {
          IndexBelow(b, j, n - 1, width);
          assert s[BlockIndex(width, b, j)] == prev[BlockIndex(width, b, j)];
        } else {
          assert BlockIndex(width, b, j) == |prev| + j;
        }
      }
    }
  }

  /** The element after the last of block `b` is the first of block `b + 1`. */
  lemma NextBlockStart(width: nat, b: nat)
    requires width >= 1
    ensures BlockIndex(width, b, width - 1) + 1 == BlockIndex(width, b + 1, 0)
  {
    assert (b + 1) * width == b * width + width;
  }

  /** An index inside one of the first `m` blocks lies below `m * width`. */
  lemma IndexBelow(b: nat, j: nat, m: nat, width: nat)
    requires b < m && j < width
    ensures BlockIndex(width, b, j) < m * width
  {
    MulLeft(b + 1, m, width);
    assert (b + 1) * width == b * width + width;
  }

  /** Every element of the result is element `i % width` of block `i / width`. */
  lemma BlocksElement<T>(n: nat, width: nat, block: nat -> seq<T>, i: nat)
    requires forall b :: |block(b)| == width
    requires i < |Blocks(n, block)|
    ensures width > 0
    ensures i / width < n
    ensures Blocks(n, block)[i] == block(i / width)[i % width]
  {
    BlocksIndex(n, width, block);
    var b, j := i / width, i % width;
    assert i == BlockIndex(width, b, j) by { DivMod(i, width); }
    assert b < n by {
      assert BlockIndex(width, b, j) < n * width;
      assert b * width < n * width;
      MulCancel(b, n, width);
    }
  }
}

=== FILE: units.dfy ===
/** The unit conversions of the planner's front end (main.py): altitude between metres and
    feet, speed between metres per second and miles per hour. Over the reals each pair
    is an exact inverse pair; the floating-point rounding of the code is not modelled. */
module Units {

  const FeetPerMetre: real := 3.28084
  const MphPerMps: real := 2.23694

  /** `feet_to_meters`. */
  function FeetToMeters(feet: real): (m: real)
    ensures m * FeetPerMetre == feet
  {
    feet / FeetPerMetre
  }

  /** `meters_to_feet`: undone by `FeetToMeters`; fixes 0 and keeps the sign. */
  function MetersToFeet(m: real): (feet: real)
    ensures FeetToMeters(feet) == m
    ensures feet > 0.0 <==> m > 0.0
    ensures feet == 0.0 <==> m == 0.0
  {
    m * FeetPerMetre
  }

  /** `mph_to_mps`. */
  function MphToMps(mph: real): (mps: real)
    ensures mps * MphPerMps == mph
  {
    mph / MphPerMps
  }

  /** `mps_to_mph`: undone by `MphToMps`; fixes 0 and keeps the sign. */
  function MpsToMph(mps: real): (mph: real)
    ensures MphToMps(mph) == mps
    ensures mph > 0.0 <==> mps > 0.0
    ensures mph == 0.0 <==> mps == 0.0
  {
    mps * MphPerMps
  }

  /** Converting feet to metres and back, or metres to feet and back, gives the original figure. */
  lemma FeetRoundTrip(feet: real, metres: real)
    ensures MetersToFeet(FeetToMeters(feet)) == feet
    ensures FeetToMeters(MetersToFeet(metres)) == metres
  {
  }

  /** Converting mph to m/s and back, or m/s to mph and back, gives the original figure. */
  lemma MphRoundTrip(mph: real, mps: real)
    ensures MpsToMph(MphToMps(mph)) == mph
    ensures MphToMps(MpsToMph(mps)) == mps
  {
  }

  /** All four conversions are strictly increasing. */
  lemma ConversionsStrictlyMonotone(a: real, b: real)
    requires a < b
    ensures MetersToFeet(a) < MetersToFeet(b) && FeetToMeters(a) < FeetToMeters(b)
    ensures MpsToMph(a) < MpsToMph(b) && MphToMps(a) < MphToMps(b)
  {
  }
}
